=== FILE: README.md ===
# Onboarding stepper: a Dafny model

This project models the onboarding flow of a React Native app template. The flow has four parts:

- **The stepper engine** (`components/Stepper.tsx`) walks through a list of pages. Each page holds steps: labelled inputs, radios, selects, checkboxes and switches.
  - On mount it seeds an answer map from every step's default value.
  - It keeps a validity flag for the current page: every required step must be answered with a value that is not blank after `trim()`.
  - Its Next button moves forward or completes on the last page. Its Back button moves back.
- **The enhanced layer** (`components/onboarding/EnhancedStepper.tsx`) sits in front of the engine:
  - It resolves pages given as functions of the stored answers.
  - It hides steps whose visibility condition fails and drops pages left with no step.
  - It transforms the answers on completion.
- **The configuration** (`components/onboarding/onboardingConfig.ts`) is the questionnaire.
  - It has fourteen pages in three phases: context, health and goals.
  - It provides the flat page list and the lookup from a flat page index to its phase.
- **The onboarding screen** (`components/onboarding/OnboardingStepper.tsx`) drives the engine over the flat page list.
  - It tracks the page index and phase for its phase indicator.
  - It stamps the completed answers with a `completedAt` time.

All of it is modelled with immutable datatypes and pure functions, in seven modules:

| file | module | what it holds |
|---|---|---|
| `wrappers.dfy` | `Wrappers` | `Option` |
| `whitespace.dfy` | `Whitespace` | JavaScript `trim()` over the ECMAScript whitespace and line-terminator characters |
| `seqs.dfy` | `Seqs` | generic `filter` and the subsequence relation |
| `stepper.dfy` | `Stepper` | the engine |
| `enhanced_stepper.dfy` | `EnhancedStepper` | the enhanced layer |
| `onboarding_config.dfy` | `OnboardingConfig` | the configured pages, transcribed exactly, and the phase mapping |
| `onboarding_stepper.dfy` | `OnboardingStepper` | the screen |

**How the engine is modelled**

- The engine's state is `(pages, index, values, valid)`. Its React effects are applied synchronously:
  - Seeding happens on mount.
  - Validity is recomputed after every change of index or answers. It is skipped, and the old flag kept, when the index designates no page.
  - The page-change notice fires on mount and on every move.
- What the engine reports to its host (`onPageChange`, `onComplete`) is returned as a list of `Notice`s.
- The raw handlers (`HandleNext`, `HandlePrevious`, `InputChange`) are modelled as written.
- `Dispatch` adds what the rendered component allows:
  - nothing at all when there is no current page;
  - Next only while the page is valid;
  - Back only above index 0.
- `Dispatch` accepts an `Edit` of any label with any value. This over-approximates the rendered inputs on purpose: it covers every value an input could write and labels not on the current page. Every property proved about `Dispatch` holds for these extra edits too.

**How the other parts are modelled**

- The visibility conditions, page generators and answer transform of the enhanced layer are function-typed parameters.
- The clock of the screen is a parameter: every user event arrives with the timestamp string to stamp with.

**Worth knowing about the source**

- The enhanced layer stores answers (`formValues`) only at completion. Its page-change handler re-stores the `formValues` it already holds rather than the engine's answers. So during a first pass through the flow, every visibility condition and page generator sees the empty map. `EnhancedStepper.FormValuesFixedUntilCompletion` and `EnhancedStepper.FirstPassSeesEmptyMap` state this.
- Two radios have a default value that is none of their options:
  - "Get Started" has default `"start"`.
  - "Ready to proceed?" has default `"build"`.

  The engine treats both as answered, so the first page is valid on mount (`OnboardingStepper.WelcomeValidOnMount`).
- The screen resets the answers on every page move. Each Next or Back reports the new index to the screen, which stores it (components/onboarding/OnboardingStepper.tsx:31) and so renders again. That render calls `getFlattenedPages()` afresh (line 27), which builds a new array. The engine's seeding effect is keyed on the identity of `pages` (components/Stepper.tsx:63-72), so it runs again and every answer goes back to its default. The model's engine seeds once, on mount, and keeps answers across moves (`OnboardingStepper.FlowStep`); `OnboardingStepper.FlowStepAsWritten` is the screen as it renders.
  - Consequence for the record: `OnboardingStepper.FlowRunRecordsAreCompletions` states that every record is a stamped completion of the engine. In the source that completion holds the defaults, except for answers given on the last page since arriving there. Every answer from an earlier page is lost. The Findings table below logs this.

## Model

`EnhancedStepper.HandleStepperComplete` and `EnhancedStepper.HandlePageChange` are the two handlers as written; what the layer promises about them (components/onboarding/EnhancedStepper.tsx:59-69) is carried by the rows for `EnhancedStepper.React`, `EnhancedStepper.PageChangeKeepsFormValues` and `EnhancedStepper.CompletionWithAddedEntry`.

| member | source | states |
|---|---|---|
| `Whitespace.Trim` | components/Stepper.tsx:81 | `trim()` returns a slice of the value with only whitespace cut off on either side, starting and ending with a non-whitespace character; the result is empty exactly when the value is all whitespace |
| `Stepper.SeedStepsSpec` | components/Stepper.tsx:65-67 | seeding a page's steps adds exactly their labels, leaves other entries alone, and stores the default of the last step carrying each label |
| `Stepper.SeedPagesFlattens` | components/Stepper.tsx:64-69 | the reduce over pages seeds the same map as one pass over all steps of all pages in order |
| `Stepper.Seed` | components/Stepper.tsx:63-72 | after seeding there is a key for every label on every page, not only the current one; for a repeated label the later step's default wins |
| `Stepper.SeedDefaultsUnique` | components/Stepper.tsx:63-72 | with distinct labels, every step's label holds that step's default |
| `Stepper.AllRequiredFilled` | components/Stepper.tsx:78-85 | the `every` check holds iff each required step of the page has a filled entry: present, and not blank after trimming |
| `Stepper.ValidIffRequiredNotBlank` | components/Stepper.tsx:78-85 | the source's `every` check holds iff each required step has an entry that is present and not blank after trimming |
| `Stepper.NoRequiredAlwaysValid` | components/Stepper.tsx:78-85 | a page with no required step is valid whatever the answers |
| `Stepper.ValidityDependsOnRequiredOnly` | components/Stepper.tsx:78-85 | answers to non-required steps never affect validity |
| `Stepper.Settle` | components/Stepper.tsx:75-88 | after the validation effect the flag is the validity of the current page, or the old flag when there is no current page; either way the flag agrees with the validity rule |
| `Stepper.Init` | components/Stepper.tsx:56-72 | mounting keeps the initial index, seeds every label with its default, reports the initial index once, and leaves the flag agreeing with the validity rule |
| `Stepper.InputChange` | components/Stepper.tsx:95-100 | setting a field replaces that label's entry only; index and pages stay; nothing is reported; the flag is re-settled on the new answers |
| `Stepper.HandleNext` | components/Stepper.tsx:102-108 | before the last page: index plus one and a page change with the new index, no completion; on or past the last page: a completion with the current answers, and nothing changes |
| `Stepper.HandlePrevious` | components/Stepper.tsx:110-114 | above index 0: index minus one and a page change with it; at 0 or below: nothing happens |
| `Stepper.NoCurrentPageInert` | components/Stepper.tsx:206-208 | with an empty page list or an index outside it, no user event has any effect |
| `Stepper.Dispatch` | components/Stepper.tsx:288-297 | an event keeps the pages, an in-range index in range and the flag agreeing with the validity rule; on a page, an edit stores its value, an enabled Back moves back one with a page change whatever the flag, and Next on a valid page moves on one with a page change, or on the last page completes with the current answers and changes nothing |
| `Stepper.NextActsIffValid` | components/Stepper.tsx:295 | on a page, Next has an effect exactly when the page is valid |
| `Stepper.EditRevalidates` | components/Stepper.tsx:75-100 | after an edit on a page, Next is enabled exactly when the edited answers fill every required step of the page |
| `Stepper.RunKeepsInRange` | components/Stepper.tsx:102-114 | an index starting in range stays in range under any sequence of events |
| `Stepper.CompletionOnlyFromValidLastPage` | components/Stepper.tsx:295-297 | a completion comes only from Next on a valid last page, carries the current answers and leaves the state as it was; with a settled flag those answers fill every required step of the last page |
| `Stepper.NextBlockedWhenInvalid` | components/Stepper.tsx:295 | Next does nothing while the page is invalid |
| `Stepper.NextBlockedOnBlankRequired` | components/Stepper.tsx:78-85 | with a settled flag, Next does nothing while some required step of the page is missing or blank |
| `Stepper.RunKeepsSettled` | components/Stepper.tsx:75-88 | over any sequence of events the flag keeps agreeing with the validity rule |
| `Stepper.CompletionsFillLastPage` | components/Stepper.tsx:102-108 | from a settled state, every completion of a run fills every required step of the last page |
| `Stepper.CompletionFromMountIsValid` | components/Stepper.tsx:56-108 | after mounting, every completion fills every required step of the last page |
| `Stepper.BackIgnoresValidity` | components/Stepper.tsx:288-292 | Back reaches the same index and reports the same whether or not the page is valid |
| `Stepper.RunKeepsKeys` | components/Stepper.tsx:95-100 | no event removes a key from the answers, and every completion carries every key the answers started with |
| `Stepper.CompletionHasEveryLabel` | components/Stepper.tsx:63-72 | every completion after mounting holds an answer for every label of every page |
| `Stepper.DispatchReportsMoves` | components/Stepper.tsx:91-93 | the index moves exactly when a page change is reported, and the report carries the new index |
| `EnhancedStepper.ResolvePages` | components/onboarding/EnhancedStepper.tsx:35-40 | resolution keeps page count and order; static pages pass unchanged, generated pages are the generator applied to `formValues` |
| `EnhancedStepper.FilterPage` | components/onboarding/EnhancedStepper.tsx:43-56 | filtering keeps title and copy and yields a subsequence of the steps, all visible |
| `EnhancedStepper.FilterPages` | components/onboarding/EnhancedStepper.tsx:43-56 | every page is filtered in place; none is dropped or moved |
| `EnhancedStepper.StepKeptIffVisible` | components/onboarding/EnhancedStepper.tsx:44-50 | a step is kept iff no condition is registered for its label or its condition holds of `formValues` |
| `EnhancedStepper.FilteredStepCount` | components/onboarding/EnhancedStepper.tsx:44-50 | the filtered page keeps exactly as many steps as are visible |
| `EnhancedStepper.UnconditionedPageUnchanged` | components/onboarding/EnhancedStepper.tsx:43-56 | a page none of whose labels has a condition comes out identical |
| `EnhancedStepper.NonEmptyPages` | components/onboarding/EnhancedStepper.tsx:80-82 | the surviving pages all have a step and keep their relative order |
| `EnhancedStepper.NonEmptyPagesKeepsExactlyNonEmpty` | components/onboarding/EnhancedStepper.tsx:80-82 | a page survives iff it has a step, and as many pages survive as have one |
| `EnhancedStepper.FilteredPageHasStepsIff` | components/onboarding/EnhancedStepper.tsx:80-82 | a filtered page keeps a step iff one of its original steps is visible |
| `EnhancedStepper.ProcessPages` | components/onboarding/EnhancedStepper.tsx:80-88 | the engine is handed no more pages than were given, each with at least one step |
| `EnhancedStepper.PageShownIff` | components/onboarding/EnhancedStepper.tsx:35-87 | a given page reaches the engine, filtered, iff one of its steps is visible |
| `EnhancedStepper.PlainPagesPassThrough` | components/onboarding/EnhancedStepper.tsx:28 | with only static pages and no conditions, the engine gets the given pages minus the empty ones |
| `EnhancedStepper.React` | components/onboarding/EnhancedStepper.tsx:86-91 | page changes go out unchanged; a completion goes out as a completion whose answers are what `formValues` now holds, and unchanged without a transform |
| `EnhancedStepper.PageChangeKeepsFormValues` | components/onboarding/EnhancedStepper.tsx:66-69 | as wired, a page change forwards the index and leaves `formValues` exactly as it was |
| `EnhancedStepper.CompletionWithAddedEntry` | components/onboarding/EnhancedStepper.tsx:59-63 | with a transform that adds one entry, the completion passes on and stores every answer unchanged plus that entry |
| `EnhancedStepper.ReactAll` | components/onboarding/EnhancedStepper.tsx:86-91 | every engine notice gives exactly one notice outward |
| `EnhancedStepper.ReactAllForwards` | components/onboarding/EnhancedStepper.tsx:89-90 | page changes go out with the same index, completions with the transformed answers, in order |
| `EnhancedStepper.FormValuesFixedUntilCompletion` | components/onboarding/EnhancedStepper.tsx:90 | page changes alone never change `formValues`, so pages and conditions keep seeing the same answers until completion |
| `EnhancedStepper.FirstPassSeesEmptyMap` | components/onboarding/EnhancedStepper.tsx:32-90 | before the first completion the layer still holds the empty map it starts with, so every generator and condition sees `{}` |
| `OnboardingConfig.FlattenedPages` | components/onboarding/onboardingConfig.ts:492-498 | the flat list is the three phase groups back to back: its length is their sum, and each group's page sits at the group's start plus its offset |
| `OnboardingConfig.PhaseForPageIndex` | components/onboarding/onboardingConfig.ts:501-512 | an index of the flat list gets the phase whose group holds it; below the list context, past it goals |
| `OnboardingConfig.FlattenedPagesShape` | components/onboarding/onboardingConfig.ts:492-498 | the flat list is context, then health, then goals: 4, 4 and 6 pages, 14 in all |
| `OnboardingConfig.PhaseThresholds` | components/onboarding/onboardingConfig.ts:501-512 | index below 4 is context, 4 to 7 health, 8 and above goals; negative indices are context and 14 or more goals |
| `OnboardingConfig.PhaseMonotone` | components/onboarding/onboardingConfig.ts:505-511 | a later index is never in an earlier phase |
| `OnboardingConfig.PhasePartition` | components/onboarding/onboardingConfig.ts:492-512 | each flat index lies in exactly the group its phase names, and the flat page there is that group's page at the same offset |
| `OnboardingConfig.EveryPageHasSteps` | components/onboarding/onboardingConfig.ts:8-488 | every configured page has a step |
| `OnboardingConfig.ChoiceStepsHaveOptions` | components/onboarding/onboardingConfig.ts:8-488 | every radio and select step declares a non-empty option list |
| `OnboardingConfig.LabelsUnique` | components/onboarding/onboardingConfig.ts:8-488 | step labels are distinct across the whole questionnaire |
| `OnboardingStepper.InitialGlue` | components/onboarding/OnboardingStepper.tsx:21-24 | the screen starts with the initial page and the phase whose group covers it |
| `OnboardingStepper.GluePageChange` | components/onboarding/OnboardingStepper.tsx:30-34 | a page change stores the reported index and the phase whose group covers it; negative indices give context, indices past the end goals |
| `OnboardingStepper.HandleComplete` | components/onboarding/OnboardingStepper.tsx:37-46 | the record holds every answer unchanged plus `completedAt` set to the time, which replaces any answer under that key |
| `OnboardingStepper.CompletedAtIsFresh` | components/onboarding/OnboardingStepper.tsx:39-42 | no configured label is `completedAt`, so the stamp hides no answer |
| `OnboardingStepper.StartFlow` | components/onboarding/OnboardingStepper.tsx:56-61 | the engine is mounted over exactly the flattened pages, in step with the screen, with every label seeded |
| `OnboardingStepper.Deliver` | components/onboarding/OnboardingStepper.tsx:30-46 | every completion among the notices is handed on exactly once, in order, stamped with the time, and nothing else is handed on; completions alone leave the screen's index and phase untouched |
| `OnboardingStepper.FlowStep` | components/onboarding/OnboardingStepper.tsx:29-61 | the corrected screen step of the Findings row, with answers kept across moves: the engine reacts as on its own, the screen's index and phase stay in step with it, and each completion it reports is handed on stamped with the event's time |
| `OnboardingStepper.FlowStepKeepsSynced` | components/onboarding/OnboardingStepper.tsx:29-34 | after any event the screen's index is the engine's and its phase matches that index |
| `OnboardingStepper.FlowRunKeepsSynced` | components/onboarding/OnboardingStepper.tsx:27 | over any run the engine keeps running over the flattened pages, matched by the screen's index and phase |
| `OnboardingStepper.DeliverStamps` | components/onboarding/OnboardingStepper.tsx:37-46 | every record handed on is a completed answer map stamped with the time |
| `OnboardingStepper.FlowRunRecordsAreCompletions` | components/onboarding/OnboardingStepper.tsx:37-46 | every record of a run is a completion of the engine in that run, stamped with the time of one of the run's events |
| `OnboardingStepper.LastPageNextHandsOnRecord` | components/onboarding/OnboardingStepper.tsx:37-46 | Next on a valid last page hands on exactly one record, the answers stamped with the time, and changes nothing on screen |
| `OnboardingStepper.TimedCompletionsAreRunCompletions` | components/Stepper.tsx:102-108 | the reference account of a timed run lists the engine's completions in order, each with the time of one of the run's events |
| `OnboardingStepper.FlowRunStampsEachCompletion` | components/onboarding/OnboardingStepper.tsx:37-46 | over any run the screen hands on exactly the reference's completions, each stamped with its own event's time |
| `OnboardingStepper.OneRecordPerCompletion` | components/onboarding/OnboardingStepper.tsx:37-46 | one record per engine completion, in the engine's order, each the completed answers stamped with the time of the event that completed them |
| `OnboardingStepper.CompletionRecordIsComplete` | components/onboarding/OnboardingStepper.tsx:37-46 | every record handed on holds an answer for every configured label, and `completedAt` |
| `OnboardingStepper.SeedKeepsEveryDefault` | components/Stepper.tsx:63-72 | over the questionnaire, seeding answers every label with its own step's default |
| `OnboardingStepper.WelcomeValidOnMount` | components/onboarding/onboardingConfig.ts:13-24 | mounted on the first page, Next is enabled at once, since "Get Started" defaults to a non-blank value |
| `OnboardingStepper.AboutYouNeedsAnswers` | components/onboarding/onboardingConfig.ts:27-64 | two presses of Next from mount stop on "About You", whose required inputs start empty, and hand nothing on |
| `OnboardingStepper.MovesKeepAnswers` | components/Stepper.tsx:102-114 | in the engine, Next and Back never change an answer, over any run of moves |
| `OnboardingStepper.FlowStepAsWritten` | components/onboarding/OnboardingStepper.tsx:27-34 | as the screen renders, a move re-seeds the engine: every answer returns to its default and the flag is settled on them |
| `OnboardingStepper.AsWrittenForgetsAge` | components/onboarding/OnboardingStepper.tsx:27-34 | Next on a filled "About You" page: the engine keeps the age given, the screen as rendered hands back an empty one |

## Left out

- JSX rendering: progress dots, `renderInput` and the card layout (components/Stepper.tsx:116-304). The model keeps only the button gating and the "No pages available" guard. A radio with no options renders nothing (components/Stepper.tsx:161-164), but it can still be required, and is modelled so.
- React scheduling. The model has no state before the mount effects, with `values` empty and `isValid` true. Effects are applied synchronously.
- Reseeding when `pages` changes identity (components/Stepper.tsx:72). The engine model seeds once, on mount. The one place the source re-seeds in practice, a page move under the onboarding screen, is modelled separately as `OnboardingStepper.FlowStepAsWritten` (see Findings). Re-renders of the enhanced layer are not modelled.
- Composition of the enhanced layer with the engine. After a completion the layer stores new `formValues` and recomputes its page list (components/onboarding/EnhancedStepper.tsx:35-82), while the engine keeps its index over the new list. The two are modelled separately and never run together.
- Callers' functions that throw. A page generator, visibility condition or transform that throws (components/onboarding/EnhancedStepper.tsx:37, 47, 60) aborts the render or the handler. The model takes them as total functions.
- Effect identity of `onPageChange`. The engine's page-change effect also re-fires when the callback's identity changes (components/Stepper.tsx:93). The model reports a page change on mount and on each move only.
- Optional callbacks. `onComplete` and `onPageChange` are always treated as present. When absent they do nothing, and nothing downstream is modelled.
- `isPageValid` and `validatePage` (components/onboarding/EnhancedStepper.tsx:72-77). They are defined but never passed to the engine, so they have no effect.
- JavaScript object semantics for answers and conditions. Both are plain objects in the source and maps in the model, so keys that collide with `Object.prototype` behave differently. A required step labelled `"__proto__"` is not stored by seeding (components/Stepper.tsx:66); reading it back yields the prototype, which passes the blank check (line 81), whereas the model stores `""` and finds the page invalid. A step labelled `"valueOf"` with no condition registered finds the inherited method (components/onboarding/EnhancedStepper.tsx:45) and calling it throws (line 47), whereas the model keeps the step. No configured label is such a key.
- Non-integer page indices. `initialPage` is a JavaScript number; a fractional one such as 1.5 designates no page. The model's index is an `int`.
- Transforms that mutate their argument. The transform receives the engine's own answer object (components/Stepper.tsx:106, components/onboarding/EnhancedStepper.tsx:60), so one that mutates it changes the engine's answers in place. The model takes transforms as pure functions.
- `new Date().toISOString()` (components/onboarding/OnboardingStepper.tsx:41). It is a clock, replaced by a timestamp parameter.
- Answer values are strings (`map<string, string>`). The source types them `any`. This is an assumption: text inputs and radios pass strings, and checkboxes and switches are taken to write `"true"` or `"false"`. The value type of the select component's change handler comes from `ui/select`, which is not part of this model, and its items also take a `label` prop (components/Stepper.tsx:139). A non-string value would be stringified by `toString()` before trimming; the model does not cover that.
- The phase indicator, the conditional-step wrapper, the welcome screen and the app screens. These are presentation and navigation wiring.

## Findings

| source | as written | input that shows it | evidently intended | confidence | as-written member | corrected member |
|---|---|---|---|---|---|---|
| components/onboarding/OnboardingStepper.tsx:27 | `getFlattenedPages()` runs on every render, so each page move hands the engine a new `pages` array; its seeding effect (components/Stepper.tsx:63-72) then resets every answer to its default | on "About You" with "Age" answered and the page valid, press Next: "Age" is back to `""` | answers survive page moves; the page list is built once per mount | not executed | `OnboardingStepper.FlowStepAsWritten`, shown by `OnboardingStepper.AsWrittenForgetsAge` | `OnboardingStepper.FlowStep`, with `OnboardingStepper.MovesKeepAnswers` |

=== FILE: enhanced_stepper.dfy ===
/** The enhanced stepper: a layer in front of the engine that resolves pages given as
    functions of the stored answers, hides steps whose visibility condition fails,
    drops pages left without steps, and transforms the answers at completion. The
    generators, conditions and transform are the caller's functions, taken here as
    function-typed parameters. */
module EnhancedStepper {
  import opened Wrappers
  import opened Seqs
  import opened Stepper

  /** An entry of the `pages` prop: a page, or a function of the answers producing one. */
  datatype PageSpec = Static(page: Page) | Generated(make: Answers -> Page)

  /** `stepVisibilityConditions`: step label to visibility predicate. */
  type Conditions = map<string, Answers -> bool>

  /** The layer's own state: `formValues`, the answers it resolves pages and conditions
      against. It starts as `{}`. */
  datatype EnhancedState = EnhancedState(formValues: Answers)

  const InitialState := EnhancedState(map[])

  // ---------------------------------------------------------------------------
  // The page pipeline
  // ---------------------------------------------------------------------------

  /** `processedPages`: each generator is called on `formValues`, each page is kept. */
  function ResolvePages(specs: seq<PageSpec>, formValues: Answers): (r: seq<Page>)
    ensures |r| == |specs|
    ensures forall i :: 0 <= i < |specs| && specs[i].Static? ==> r[i] == specs[i].page
    ensures forall i :: 0 <= i < |specs| && specs[i].Generated? ==> r[i] == specs[i].make(formValues)
    decreases |specs|
  {
    if specs == [] then []
    else
      var first := match specs[0] case Static(p) => p case Generated(make) => make(formValues);
      [first] + ResolvePages(specs[1..], formValues)
  }

  /** A step stays visible when no condition is registered for its label, or when its
      condition holds of `formValues`. */
  predicate Visible(conditions: Conditions, formValues: Answers, st: Step)
  {
    st.name !in conditions || conditions[st.name](formValues)
  }

  /** One page of `processedPagesWithConditionalSteps`: the same page with its hidden
      steps filtered out. */
  function FilterPage(conditions: Conditions, formValues: Answers, page: Page): (r: Page)
    ensures r.title == page.title && r.copy == page.copy
    ensures IsSubsequence(r.steps, page.steps)
    ensures forall i :: 0 <= i < |r.steps| ==> Visible(conditions, formValues, r.steps[i])
  {
    var keep := (st: Step) => Visible(conditions, formValues, st);
    FilterIsSubsequence(keep, page.steps);
    page.(steps := Filter(keep, page.steps))
  }

  /** `processedPagesWithConditionalSteps`: every page filtered, none dropped. */
  function FilterPages(conditions: Conditions, formValues: Answers, pages: seq<Page>): (r: seq<Page>)
    ensures |r| == |pages|
    ensures forall i :: 0 <= i < |pages| ==> r[i] == FilterPage(conditions, formValues, pages[i])
    decreases |pages|
  {
    if pages == [] then []
    else [FilterPage(conditions, formValues, pages[0])] + FilterPages(conditions, formValues, pages[1..])
  }

  predicate HasSteps(page: Page)
  {
    |page.steps| > 0
  }

  /** `nonEmptyPages`: the pages that still have a step, in order. */
  function NonEmptyPages(pages: seq<Page>): (r: seq<Page>)
    ensures forall i :: 0 <= i < |r| ==> |r[i].steps| > 0
    ensures IsSubsequence(r, pages)
  {
    FilterIsSubsequence(HasSteps, pages);
    Filter(HasSteps, pages)
  }

  /** The page list handed to the inner stepper. */
  function ProcessPages(specs: seq<PageSpec>, conditions: Conditions, formValues: Answers): (r: seq<Page>)
    ensures |r| <= |specs|
    ensures forall i :: 0 <= i < |r| ==> |r[i].steps| > 0
  {
    NonEmptyPages(FilterPages(conditions, formValues, ResolvePages(specs, formValues)))
  }

  // ---------------------------------------------------------------------------
  // Properties of the pipeline
  // ---------------------------------------------------------------------------

  /** A step of the page survives filtering iff it is visible. */
  lemma StepKeptIffVisible(conditions: Conditions, formValues: Answers, page: Page, st: Step)
    requires st in page.steps
    ensures st in FilterPage(conditions, formValues, page).steps <==> Visible(conditions, formValues, st)
  {
    FilterMembership((s: Step) => Visible(conditions, formValues, s), page.steps, st);
  }

  /** The filtered page keeps exactly as many steps as are visible. */
  lemma FilteredStepCount(conditions: Conditions, formValues: Answers, page: Page)
    ensures |FilterPage(conditions, formValues, page).steps| ==
      Count((s: Step) => Visible(conditions, formValues, s), page.steps)
  {
    FilterLength((s: Step) => Visible(conditions, formValues, s), page.steps);
  }

  /** A page none of whose labels has a registered condition comes out identical. */
  lemma UnconditionedPageUnchanged(conditions: Conditions, formValues: Answers, page: Page)
    requires forall i :: 0 <= i < |page.steps| ==> page.steps[i].name !in conditions
    ensures FilterPage(conditions, formValues, page) == page
  {
    FilterKeepsAll((s: Step) => Visible(conditions, formValues, s), page.steps);
  }

  /** A filtered page has a step left iff some step of the original is visible. */
  lemma FilteredPageHasStepsIff(conditions: Conditions, formValues: Answers, page: Page)
    ensures |FilterPage(conditions, formValues, page).steps| > 0 <==>
      exists i :: 0 <= i < |page.steps| && Visible(conditions, formValues, page.steps[i])
  {
    FilterNonEmpty((s: Step) => Visible(conditions, formValues, s), page.steps);
  }

  /** A page reaches the stepper iff it still has a step; those pages are all of them. */
  lemma NonEmptyPagesKeepsExactlyNonEmpty(pages: seq<Page>, page: Page)
    ensures page in NonEmptyPages(pages) <==> page in pages && |page.steps| > 0
    ensures |NonEmptyPages(pages)| == Count(HasSteps, pages)
  {
    FilterMembership(HasSteps, pages, page);
    FilterLength(HasSteps, pages);
  }

  /** A page of the resolved list reaches the stepper, filtered, exactly when one of its
      steps is visible. */
  lemma PageShownIff(specs: seq<PageSpec>, conditions: Conditions, formValues: Answers, i: int)
    requires 0 <= i < |specs|
    ensures var page := FilterPage(conditions, formValues, ResolvePages(specs, formValues)[i]);
      page in ProcessPages(specs, conditions, formValues) <==>
      exists j :: 0 <= j < |ResolvePages(specs, formValues)[i].steps| &&
        Visible(conditions, formValues, ResolvePages(specs, formValues)[i].steps[j])
  {
    var resolved := ResolvePages(specs, formValues);
    var filtered := FilterPages(conditions, formValues, resolved);
    var page := FilterPage(conditions, formValues, resolved[i]);
    assert filtered[i] == page;
    NonEmptyPagesKeepsExactlyNonEmpty(filtered, page);
    FilteredPageHasStepsIff(conditions, formValues, resolved[i]);
  }

  /** With no generators and no conditions, the stepper gets the non-empty pages. */
  lemma PlainPagesPassThrough(specs: seq<PageSpec>, formValues: Answers)
    requires forall i :: 0 <= i < |specs| ==> specs[i].Static?
    ensures ProcessPages(specs, map[], formValues) ==
      NonEmptyPages(seq(|specs|, i requires 0 <= i < |specs| => specs[i].page))
  {
    var resolved := ResolvePages(specs, formValues);
    forall i | 0 <= i < |resolved|
      ensures FilterPage(map[], formValues, resolved[i]) == resolved[i]
    {
      UnconditionedPageUnchanged(map[], formValues, resolved[i]);
    }
    assert FilterPages(map[], formValues, resolved) == resolved;
    assert resolved == seq(|specs|, i requires 0 <= i < |specs| => specs[i].page);
  }

  // ---------------------------------------------------------------------------
  // Callbacks
  // ---------------------------------------------------------------------------

  /** `handleStepperComplete`: the transformed answers (or the answers themselves when
      no transform is given) become `formValues` and go out through `onComplete`. */
  function HandleStepperComplete(st: EnhancedState, values: Answers, transform: Option<Answers -> Answers>)
    : (r: (EnhancedState, Notice))
    ensures r.1.Completed? && r.0.formValues == r.1.values
    ensures transform.None? ==> r.1.values == values
    ensures transform.Some? ==> r.1.values == transform.value(values)
  {
    var finalValues := match transform case Some(f) => f(values) case None => values;
    (EnhancedState(finalValues), Completed(finalValues))
  }

  /** `handlePageChange(pageIndex, values)`: store `values`, forward the index. */
  function HandlePageChange(st: EnhancedState, pageIndex: int, values: Answers): (r: (EnhancedState, Notice))
    ensures r.0.formValues == values && r.1 == PageChanged(pageIndex)
  {
    (EnhancedState(values), PageChanged(pageIndex))
  }

  /** The stepper's notices as the layer wires them: a page change re-stores the
      current `formValues`; a completion goes through `HandleStepperComplete`. */
  function React(st: EnhancedState, n: Notice, transform: Option<Answers -> Answers>): (r: (EnhancedState, Notice))
    ensures n.PageChanged? ==> r.1 == n
    ensures n.Completed? ==> r.1.Completed? && r.0.formValues == r.1.values
    ensures n.Completed? && transform.None? ==> r.1 == n
  {
    match n
    case PageChanged(i) => HandlePageChange(st, i, st.formValues)
    case Completed(v) => HandleStepperComplete(st, v, transform)
  }

  /** As wired, a page change forwards the index and leaves `formValues` as it was: the
      handler re-stores the map it already holds, not the stepper's answers. */
  lemma PageChangeKeepsFormValues(st: EnhancedState, pageIndex: int, transform: Option<Answers -> Answers>)
    ensures React(st, PageChanged(pageIndex), transform) == (st, PageChanged(pageIndex))
  {
  }

  /** A transform that files one more entry: the completion passes on, and stores, every
      answer unchanged plus that entry, which replaces any answer under its key. */
  lemma CompletionWithAddedEntry(st: EnhancedState, values: Answers, key: string, x: string)
    ensures var r := React(st, Completed(values), Some((a: Answers) => a[key := x]));
      && r.1.values.Keys == values.Keys + {key}
      && r.1.values[key] == x
      && (forall k :: k in values && k != key ==> r.1.values[k] == values[k])
      && r.0.formValues == r.1.values
  {
  }

  /** A run of stepper notices, with the notices sent outward. */
  function ReactAll(st: EnhancedState, ns: seq<Notice>, transform: Option<Answers -> Answers>)
    : (r: (EnhancedState, seq<Notice>))
    ensures |r.1| == |ns|
    decreases |ns|
  {
    if ns == [] then (st, [])
    else
      var (st1, out) := React(st, ns[0], transform);
      var (st2, outs) := ReactAll(st1, ns[1..], transform);
      (st2, [out] + outs)
  }

  /** Every notice goes out in order: page changes with the same index, completions with
      the transformed answers. */
  lemma {:induction false} ReactAllForwards(st: EnhancedState, ns: seq<Notice>, transform: Option<Answers -> Answers>)
    ensures forall k :: 0 <= k < |ns| && ns[k].PageChanged? ==>
      ReactAll(st, ns, transform).1[k] == ns[k]
    ensures forall k :: 0 <= k < |ns| && ns[k].Completed? ==>
      ReactAll(st, ns, transform).1[k] == Completed(transform.GetOr(v => v)(ns[k].values))
    decreases |ns|
  {
    if ns != [] {
      var (st1, _) := React(st, ns[0], transform);
      ReactAllForwards(st1, ns[1..], transform);
    }
  }

  /** `formValues` changes only at completion: a run of page changes leaves it, and so the
      page list handed to the stepper, as it was. */
  lemma {:induction false} FormValuesFixedUntilCompletion(st: EnhancedState, ns: seq<Notice>,
                                                          transform: Option<Answers -> Answers>)
    requires forall k :: 0 <= k < |ns| ==> ns[k].PageChanged?
    ensures ReactAll(st, ns, transform).0 == st
    decreases |ns|
  {
    if ns != [] {
      FormValuesFixedUntilCompletion(st, ns[1..], transform);
    }
  }

  /** During a first pass, before any completion, the layer still holds the empty map
      it starts with, so every generator and condition is applied to `{}`. */
  lemma FirstPassSeesEmptyMap(ns: seq<Notice>, transform: Option<Answers -> Answers>)
    requires forall k :: 0 <= k < |ns| ==> ns[k].PageChanged?
    ensures ReactAll(InitialState, ns, transform).0.formValues == map[]
  {
    FormValuesFixedUntilCompletion(InitialState, ns, transform);
  }
}

=== FILE: onboarding_config.dfy ===
/** The onboarding questionnaire: its pages grouped into three phases, the flat page list
    handed to the stepper, and the lookup from a flat page index to its phase. */
module OnboardingConfig {
  import opened Wrappers
  import opened Stepper

  /** `OnboardingPhase`, in display order. */
  datatype Phase = Context | Health | Goals

  /** Position of a phase in the order context, health, goals. */
  function Rank(ph: Phase): nat
  {
    match ph
    case Context => 0
    case Health => 1
    case Goals => 2
  }

  // Step shapes used by the configuration; every step starts with `value: ""`.

  function InputStep(name: string, placeholder: string, required: bool): Step
  {
    Step(name, Input, "", "", None, Some(placeholder), required)
  }

  function RadioStep(name: string, defaultValue: string, options: seq<string>, required: bool): Step
  {
    Step(name, Radio, "", defaultValue, Some(options), None, required)
  }

  function SelectStep(name: string, options: seq<string>): Step
  {
    Step(name, Select, "", "", Some(options), None, false)
  }

  function CheckboxStep(name: string): Step
  {
    Step(name, Checkbox, "", "false", None, None, false)
  }

  const WelcomePage: Page :=
    Page("Welcome",
      "Hey there \U{1F44B} I'm here to help you build a diet that actually fits your life, your health, and your taste.",
      [RadioStep("Get Started", "start",
         ["Sounds good, let's start", "What can you help with?", "Not now"], true)])

  const AboutYouPage: Page :=
    Page("About You",
      "First things first\U{2014}just a few quick questions about you.",
      [InputStep("Age", "e.g. 29", true),
       RadioStep("Sex Assigned at Birth", "", ["Male", "Female", "Other"], true),
       InputStep("Height", "e.g. 179cm", true),
       InputStep("Weight", "e.g. 135kg", true)])

  const WhereYouLivePage: Page :=
    Page("Where Do You Live?",
      "Where in the world do you live? This helps me recommend the right ingredients, meals, and shops.",
      [InputStep("Country", "e.g. South Africa", true),
       InputStep("City", "e.g. Johannesburg", true),
       InputStep("Area", "e.g. Linden", false)])

  const CulturePage: Page :=
    Page("Culture & Food Background",
      "Your cultural background can shape what's familiar and comforting. Want to tell me about yours?",
      [RadioStep("Cultural Background", "",
         ["South Asian / Indian", "African / Afro-Caribbean", "Mediterranean",
          "Western / European", "+ Add my own", "Skip this"], false),
       InputStep("Custom Cultural Background", "Describe your cultural background", false)])

  const ContextPages: seq<Page> := [WelcomePage, AboutYouPage, WhereYouLivePage, CulturePage]

  const MedicalConditionsPage: Page :=
    Page("Medical Conditions",
      "I'll adjust your plan based on this info.",
      [CheckboxStep("Do you have any medical conditions?"),
       CheckboxStep("Insulin Resistance"),
       CheckboxStep("Hypothyroidism"),
       CheckboxStep("High Cholesterol"),
       CheckboxStep("Hidradenitis Suppurativa"),
       InputStep("Other Conditions", "Add other conditions", false)])

  const MedicationsPage: Page :=
    Page("Medications & Supplements",
      "Do you take any medications or supplements?",
      [RadioStep("Medications Status", "", ["Yes", "No", "Prefer not to say"], true),
       InputStep("List Your Medications", "e.g. Metformin, Vitamin D", false)])

  const EatingHabitsPage: Page :=
    Page("Current Eating Habits",
      "What does a usual day of eating look like for you?",
      [CheckboxStep("Skip breakfast"),
       CheckboxStep("One big meal a day"),
       CheckboxStep("Frequent takeout or fast food"),
       CheckboxStep("Lots of coffee, little food"),
       CheckboxStep("High sugar or carb cravings"),
       InputStep("Additional Details", "Add more details about your eating habits", false)])

  const FoodPreferencesPage: Page :=
    Page("Food Preferences & Restrictions",
      "Let's avoid stuff that doesn't agree with you.",
      [CheckboxStep("No gluten or wheat"),
       CheckboxStep("No dairy"),
       CheckboxStep("No sugar"),
       CheckboxStep("No quinoa or grains"),
       SelectStep("Dietary Preference",
         ["No restrictions", "Vegetarian", "Vegan", "Pescatarian", "Halal", "Kosher"]),
       InputStep("Additional Restrictions", "Any other food restrictions", false)])

  const HealthPages: seq<Page> := [MedicalConditionsPage, MedicationsPage, EatingHabitsPage, FoodPreferencesPage]

  const TopGoalPage: Page :=
    Page("Your Top Goal",
      "What's your top goal right now?",
      [RadioStep("Primary Goal", "",
         ["Lose weight safely", "Reduce flare-ups or inflammation",
          "Improve energy or focus", "Just eat better overall"], true),
       InputStep("Custom Goal", "Add your own goal", false)])

  const CookingStylePage: Page :=
    Page("Cooking Style & Time",
      "How much time do you actually want to spend on food?",
      [RadioStep("Cooking Time Preference", "",
         ["Under 10 mins only", "I can do 15\U{2013}30 mins", "I batch cook on Sundays",
          "Microwave only life"], true)])

  const GroceryPreferencesPage: Page :=
    Page("Grocery Preferences",
      "Where do you usually shop?",
      [CheckboxStep("Woolworths"),
       CheckboxStep("Pick n Pay"),
       CheckboxStep("Checkers"),
       CheckboxStep("Food Lover's"),
       CheckboxStep("Online delivery"),
       InputStep("Other Stores", "Other stores you shop at", false)])

  const GroceryBudgetPage: Page :=
    Page("Weekly Grocery Budget",
      "What's your weekly grocery budget?",
      [RadioStep("Budget Range", "",
         ["Tight budget (R500\U{2013}R700)", "Moderate (R700\U{2013}R1200)",
          "Flexible (R1200+)", "Not sure"], true)])

  const MealPlanPage: Page :=
    Page("Meal Plan Preferences",
      "What do you want in your plan?",
      [CheckboxStep("Quick breakfasts"),
       CheckboxStep("Packable lunches"),
       CheckboxStep("Wholesome dinners"),
       CheckboxStep("Snacks"),
       CheckboxStep("Smoothies"),
       CheckboxStep("Soups & broths"),
       CheckboxStep("Anti-inflammatory meals")])

  const ConfirmationPage: Page :=
    Page("Confirmation",
      "Thanks! You're all set. I'm building your personalized plan now:\n\n\U{2713} Tailored to your health\n\U{2713} Based on what you like\n\U{2713} Matched to your budget & lifestyle\n\U{2713} With a smart grocery list for your local stores",
      [RadioStep("Ready to proceed?", "build", ["Build My Plan"], true)])

  const GoalsPages: seq<Page> := [TopGoalPage, CookingStylePage, GroceryPreferencesPage, GroceryBudgetPage, MealPlanPage, ConfirmationPage]

  /** `onboardingConfig[phase]`. */
  function PhasePages(ph: Phase): seq<Page>
  {
    match ph
    case Context => ContextPages
    case Health => HealthPages
    case Goals => GoalsPages
  }

  /** `getFlattenedPages()`: the three groups, one after the other. */
  function FlattenedPages(): (r: seq<Page>)
    ensures |r| == |PhasePages(Context)| + |PhasePages(Health)| + |PhasePages(Goals)|
    ensures forall ph, i :: 0 <= i < |PhasePages(ph)| ==> r[PhaseStart(ph) + i] == PhasePages(ph)[i]
  {
    PhasePages(Context) + PhasePages(Health) + PhasePages(Goals)
  }

  /** `getPhaseForPageIndex`: compare against the cumulative group lengths. Indices
      below 0 fall into the first test and indices past the end into the last branch. */
  function PhaseForPageIndex(pageIndex: int): (r: Phase)
    ensures 0 <= pageIndex < |FlattenedPages()| ==> InPhase(r, pageIndex)
    ensures pageIndex < 0 ==> r == Context
    ensures pageIndex >= |FlattenedPages()| ==> r == Goals
  {
    var contextLength := |PhasePages(Context)|;
    var healthLength := |PhasePages(Health)|;
    if pageIndex < contextLength then Context
    else if pageIndex < contextLength + healthLength then Health
    else Goals
  }

  /** Flat index of the first page of a group: the lengths of the groups before it. */
  function PhaseStart(ph: Phase): nat
  {
    match ph
    case Context => 0
    case Health => |PhasePages(Context)|
    case Goals => |PhasePages(Context)| + |PhasePages(Health)|
  }

  /** A radio or select step declares a non-empty option list. */
  predicate HasOptionsIfChoice(st: Step)
  {
    (st.kind == Radio || st.kind == Select) ==> st.options.Some? && |st.options.value| > 0
  }

  /** Group `ph` covers the flat index `i`. */
  predicate InPhase(ph: Phase, i: int)
  {
    PhaseStart(ph) <= i < PhaseStart(ph) + |PhasePages(ph)|
  }

  // ---------------------------------------------------------------------------
  // Properties
  // ---------------------------------------------------------------------------

  /** The groups hold 4, 4 and 6 pages; the flat list holds their 14 pages in order. */
  lemma FlattenedPagesShape()
    ensures |PhasePages(Context)| == 4 && |PhasePages(Health)| == 4 && |PhasePages(Goals)| == 6
    ensures |FlattenedPages()| == 14
    ensures FlattenedPages()[..4] == ContextPages
    ensures FlattenedPages()[4..8] == HealthPages
    ensures FlattenedPages()[8..] == GoalsPages
  {
  }

  /** The phase lookup with the group lengths written out: context below 4, health
      below 8, goals otherwise (negative indices give context, 14 and beyond goals). */
  lemma PhaseThresholds(i: int)
    ensures i < 4 ==> PhaseForPageIndex(i) == Context
    ensures 4 <= i < 8 ==> PhaseForPageIndex(i) == Health
    ensures 8 <= i ==> PhaseForPageIndex(i) == Goals
  {
  }

  /** A later page is never in an earlier phase. */
  lemma PhaseMonotone(i: int, j: int)
    requires i <= j
    ensures Rank(PhaseForPageIndex(i)) <= Rank(PhaseForPageIndex(j))
  {
  }

  /** Every flat index maps to the one group that covers it, and the flat page there is
      the page at the same offset inside that group. */
  lemma PhasePartition(i: int)
    requires 0 <= i < |FlattenedPages()|
    ensures forall ph :: InPhase(ph, i) <==> ph == PhaseForPageIndex(i)
    ensures FlattenedPages()[i] ==
      PhasePages(PhaseForPageIndex(i))[i - PhaseStart(PhaseForPageIndex(i))]
  {
    FlattenedPagesShape();
  }

  /** Every configured page has at least one step. */
  lemma EveryPageHasSteps()
    ensures forall i :: 0 <= i < |FlattenedPages()| ==> |FlattenedPages()[i].steps| > 0
  {
  }

  /** Every choice step (radio or select) comes with a non-empty option list. */
  lemma ChoiceStepsHaveOptions()
    ensures forall i :: 0 <= i < |AllSteps(FlattenedPages())| ==>
      HasOptionsIfChoice(AllSteps(FlattenedPages())[i])
  {
    var pages := FlattenedPages();
    FlattenedPagesShape();
    ContextChoicesHaveOptions();
    HealthChoicesHaveOptions();
    GoalsChoicesHaveOptions();
    forall p | 0 <= p < |pages| ensures ChoicesHaveOptions(pages[p]) {
      if p < 4 {
        assert pages[p] == pages[..4][p];
      } else if p < 8 {
        assert pages[p] == pages[4..8][p - 4];
      } else {
        assert pages[p] == pages[8..][p - 8];
      }
    }
    forall i | 0 <= i < |AllSteps(pages)| ensures HasOptionsIfChoice(AllSteps(pages)[i]) {
      AllStepsIndex(pages, i);
    }
  }

  /** Step labels are unique across the whole questionnaire, so seeding the answer map
      keeps every step's default; the label of the step at flat position `i` is the one
      `LabelPosition` places there. */
  lemma LabelsUnique()
    ensures UniqueLabels(AllSteps(FlattenedPages()))
    ensures forall i :: 0 <= i < |AllSteps(FlattenedPages())| ==>
      LabelPosition(AllSteps(FlattenedPages())[i].name) == i
  {
    ContextPositions();
    HealthPositions();
    GoalsPositions();
    GroupPositionsGiveUniqueness(LabelPosition, ContextPages, HealthPages, GoalsPages);
  }

  // ---------------------------------------------------------------------------
  // Proof devices for the facts about the configured data
  // ---------------------------------------------------------------------------

  /** Every choice step of the page declares options. */
  predicate ChoicesHaveOptions(page: Page)
  {
    forall j :: 0 <= j < |page.steps| ==> HasOptionsIfChoice(page.steps[j])
  }

  /** The option check, page by page within each group. */
  lemma ContextChoicesHaveOptions()
    ensures forall p :: 0 <= p < |ContextPages| ==> ChoicesHaveOptions(ContextPages[p])
  {
    assert ChoicesHaveOptions(WelcomePage);
    assert ChoicesHaveOptions(AboutYouPage);
    assert ChoicesHaveOptions(WhereYouLivePage);
    assert ChoicesHaveOptions(CulturePage);
  }

  lemma HealthChoicesHaveOptions()
    ensures forall p :: 0 <= p < |HealthPages| ==> ChoicesHaveOptions(HealthPages[p])
  {
    assert ChoicesHaveOptions(MedicalConditionsPage);
    assert ChoicesHaveOptions(MedicationsPage);
    assert ChoicesHaveOptions(EatingHabitsPage);
    assert ChoicesHaveOptions(FoodPreferencesPage);
  }

  lemma GoalsChoicesHaveOptions()
    ensures forall p :: 0 <= p < |GoalsPages| ==> ChoicesHaveOptions(GoalsPages[p])
  {
    assert ChoicesHaveOptions(TopGoalPage);
    assert ChoicesHaveOptions(CookingStylePage);
    assert ChoicesHaveOptions(GroceryPreferencesPage);
    assert ChoicesHaveOptions(GroceryBudgetPage);
    assert ChoicesHaveOptions(MealPlanPage);
    assert ChoicesHaveOptions(ConfirmationPage);
  }

  /** The flat position of each configured label, and -1 for any other string; labels
      are first told apart by length, so that no more than a handful are compared. */
  ghost function LabelPosition(name: string): int
  {
    match |name|
    case 3 => if name == "Age" then 1 else -1
    case 4 => if name == "City" then 6 else if name == "Area" then 7 else -1
    case 6 => if name == "Height" then 3 else if name == "Weight" then 4 else if name == "Snacks" then 43 else -1
    case 7 => if name == "Country" then 5 else -1
    case 8 => if name == "No dairy" then 25 else if name == "No sugar" then 26 else if name == "Checkers" then 35 else -1
    case 9 => if name == "Smoothies" then 44 else -1
    case 10 => if name == "Woolworths" then 33 else if name == "Pick n Pay" then 34 else -1
    case 11 => if name == "Get Started" then 0 else if name == "Custom Goal" then 31 else -1
    case 12 => if name == "Primary Goal" then 30 else if name == "Food Lover's" then 36 else if name == "Other Stores" then 38 else if name == "Budget Range" then 39 else -1
    case 14 => if name == "Hypothyroidism" then 12 else if name == "Skip breakfast" then 18 else if name == "Soups & broths" then 45 else -1
    case 15 => if name == "Online delivery" then 37 else -1
    case 16 => if name == "High Cholesterol" then 13 else if name == "Other Conditions" then 15 else if name == "Quick breakfasts" then 40 else if name == "Packable lunches" then 41 else -1
    case 17 => if name == "Wholesome dinners" then 42 else if name == "Ready to proceed?" then 47 else -1
    case 18 => if name == "Insulin Resistance" then 11 else if name == "Medications Status" then 16 else if name == "One big meal a day" then 19 else if name == "Additional Details" then 23 else if name == "No gluten or wheat" then 24 else if name == "Dietary Preference" then 28 else -1
    case 19 => if name == "Cultural Background" then 8 else if name == "No quinoa or grains" then 27 else -1
    case 21 => if name == "Sex Assigned at Birth" then 2 else if name == "List Your Medications" then 17 else -1
    case 23 => if name == "Additional Restrictions" then 29 else if name == "Cooking Time Preference" then 32 else if name == "Anti-inflammatory meals" then 46 else -1
    case 24 => if name == "Hidradenitis Suppurativa" then 14 else -1
    case 26 => if name == "Custom Cultural Background" then 9 else -1
    case 27 => if name == "Lots of coffee, little food" then 21 else if name == "High sugar or carb cravings" then 22 else -1
    case 29 => if name == "Frequent takeout or fast food" then 20 else -1
    case 35 => if name == "Do you have any medical conditions?" then 10 else -1
    case _ => -1
  }

  /** Starting at step `j`, each step's label sits at position `base + j`. */
  ghost predicate PositionsFrom(pos: string -> int, steps: seq<Step>, j: nat, base: int)
    decreases |steps| - j
  {
    j >= |steps| || (pos(steps[j].name) == base + j && PositionsFrom(pos, steps, j + 1, base))
  }

  /** Starting at page `p`, the labels of the pages sit at the consecutive positions
      from `base` up to (not including) `end`. */
  ghost predicate PagePositionsFrom(pos: string -> int, pages: seq<Page>, p: nat, base: int, end: int)
    decreases |pages| - p
  {
    if p >= |pages| then base == end
    else
      && PositionsFrom(pos, pages[p].steps, 0, base)
      && PagePositionsFrom(pos, pages, p + 1, base + |pages[p].steps|, end)
  }

  lemma {:induction false} PositionsFromSound(pos: string -> int, steps: seq<Step>, j: nat, base: int)
    requires PositionsFrom(pos, steps, j, base)
    ensures forall k :: j <= k < |steps| ==> pos(steps[k].name) == base + k
    decreases |steps| - j
  {
    if j < |steps| {
      PositionsFromSound(pos, steps, j + 1, base);
    }
  }

  lemma {:induction false} PagePositionsFromSound(pos: string -> int, pages: seq<Page>, p: nat, base: int, end: int)
    requires p <= |pages| && PagePositionsFrom(pos, pages, p, base, end)
    ensures |AllSteps(pages[p..])| == end - base
    ensures forall k :: 0 <= k < |AllSteps(pages[p..])| ==>
      pos(AllSteps(pages[p..])[k].name) == base + k
    decreases |pages| - p
  {
    if p < |pages| {
      PositionsFromSound(pos, pages[p].steps, 0, base);
      PagePositionsFromSound(pos, pages, p + 1, base + |pages[p].steps|, end);
      assert pages[p..][1..] == pages[p + 1..];
      assert AllSteps(pages[p..]) == pages[p].steps + AllSteps(pages[p + 1..]);
    }
  }

  lemma WelcomePositions()
    ensures PositionsFrom(LabelPosition, WelcomePage.steps, 0, 0)
  {
  }

  lemma AboutYouPositions()
    ensures PositionsFrom(LabelPosition, AboutYouPage.steps, 0, 1)
  {
  }

  lemma WhereYouLivePositions()
    ensures PositionsFrom(LabelPosition, WhereYouLivePage.steps, 0, 5)
  {
  }

  lemma CulturePositions()
    ensures PositionsFrom(LabelPosition, CulturePage.steps, 0, 8)
  {
  }

  lemma MedicalConditionsPositions()
    ensures PositionsFrom(LabelPosition, MedicalConditionsPage.steps, 0, 10)
  {
  }

  lemma MedicationsPositions()
    ensures PositionsFrom(LabelPosition, MedicationsPage.steps, 0, 16)
  {
  }

  lemma EatingHabitsPositions()
    ensures PositionsFrom(LabelPosition, EatingHabitsPage.steps, 0, 18)
  {
  }

  lemma FoodPreferencesPositions()
    ensures PositionsFrom(LabelPosition, FoodPreferencesPage.steps, 0, 24)
  {
  }

  lemma TopGoalPositions()
    ensures PositionsFrom(LabelPosition, TopGoalPage.steps, 0, 30)
  {
  }

  lemma CookingStylePositions()
    ensures PositionsFrom(LabelPosition, CookingStylePage.steps, 0, 32)
  {
  }

  lemma GroceryPreferencesPositions()
    ensures PositionsFrom(LabelPosition, GroceryPreferencesPage.steps, 0, 33)
  {
  }

  lemma GroceryBudgetPositions()
    ensures PositionsFrom(LabelPosition, GroceryBudgetPage.steps, 0, 39)
  {
  }

  lemma MealPlanPositions()
    ensures PositionsFrom(LabelPosition, MealPlanPage.steps, 0, 40)
  {
  }

  lemma ConfirmationPositions()
    ensures PositionsFrom(LabelPosition, ConfirmationPage.steps, 0, 47)
  {
  }

  /** Positions of two page lists, the second numbered on from the first, combine. */
  lemma PositionsAppend(pos: string -> int, a: seq<Page>, b: seq<Page>, base: int)
    requires forall k :: 0 <= k < |AllSteps(a)| ==> pos(AllSteps(a)[k].name) == base + k
    requires forall k :: 0 <= k < |AllSteps(b)| ==>
      pos(AllSteps(b)[k].name) == base + |AllSteps(a)| + k
    ensures forall k :: 0 <= k < |AllSteps(a + b)| ==>
      pos(AllSteps(a + b)[k].name) == base + k
  {
    AllStepsAppend(a, b);
    var sa, sb := AllSteps(a), AllSteps(b);
    forall k | 0 <= k < |AllSteps(a + b)|
      ensures pos(AllSteps(a + b)[k].name) == base + k
    {
      if k >= |sa| {
        assert AllSteps(a + b)[k] == sb[k - |sa|];
      }
    }
  }

  /** Three page lists whose labels sit at consecutive positions have, together,
      unique labels, each at its own position. */
  lemma GroupPositionsGiveUniqueness(pos: string -> int, c: seq<Page>, h: seq<Page>, g: seq<Page>)
    requires PagePositionsFrom(pos, c, 0, 0, 10)
    requires PagePositionsFrom(pos, h, 0, 10, 30)
    requires PagePositionsFrom(pos, g, 0, 30, 48)
    ensures UniqueLabels(AllSteps(c + h + g))
    ensures forall i :: 0 <= i < |AllSteps(c + h + g)| ==> pos(AllSteps(c + h + g)[i].name) == i
  {
    PagePositionsFromSound(pos, c, 0, 0, 10);
    PagePositionsFromSound(pos, h, 0, 10, 30);
    PagePositionsFromSound(pos, g, 0, 30, 48);
    assert c[0..] == c && h[0..] == h && g[0..] == g;
    PositionsAppend(pos, c, h, 0);
    AllStepsAppend(c, h);
    assert |AllSteps(c + h)| == 30;
    PositionsAppend(pos, c + h, g, 0);
    var steps := AllSteps(c + h + g);
    forall i, j | 0 <= i < j < |steps| ensures steps[i].name != steps[j].name {
      assert pos(steps[i].name) == i && pos(steps[j].name) == j;
    }
  }

  lemma ContextPositions()
    ensures PagePositionsFrom(LabelPosition, ContextPages, 0, 0, 10)
  {
    assert PagePositionsFrom(LabelPosition, ContextPages, 4, 10, 10);
    CulturePositions();
    assert ContextPages[3] == CulturePage && |CulturePage.steps| == 2;
    assert PagePositionsFrom(LabelPosition, ContextPages, 3, 8, 10);
    WhereYouLivePositions();
    assert ContextPages[2] == WhereYouLivePage && |WhereYouLivePage.steps| == 3;
    assert PagePositionsFrom(LabelPosition, ContextPages, 2, 5, 10);
    AboutYouPositions();
    assert ContextPages[1] == AboutYouPage && |AboutYouPage.steps| == 4;
    assert PagePositionsFrom(LabelPosition, ContextPages, 1, 1, 10);
    WelcomePositions();
    assert ContextPages[0] == WelcomePage && |WelcomePage.steps| == 1;
    assert PagePositionsFrom(LabelPosition, ContextPages, 0, 0, 10);
  }

  lemma HealthPositions()
    ensures PagePositionsFrom(LabelPosition, HealthPages, 0, 10, 30)
  {
    assert PagePositionsFrom(LabelPosition, HealthPages, 4, 30, 30);
    FoodPreferencesPositions();
    assert HealthPages[3] == FoodPreferencesPage && |FoodPreferencesPage.steps| == 6;
    assert PagePositionsFrom(LabelPosition, HealthPages, 3, 24, 30);
    EatingHabitsPositions();
    assert HealthPages[2] == EatingHabitsPage && |EatingHabitsPage.steps| == 6;
    assert PagePositionsFrom(LabelPosition, HealthPages, 2, 18, 30);
    MedicationsPositions();
    assert HealthPages[1] == MedicationsPage && |MedicationsPage.steps| == 2;
    assert PagePositionsFrom(LabelPosition, HealthPages, 1, 16, 30);
    MedicalConditionsPositions();
    assert HealthPages[0] == MedicalConditionsPage && |MedicalConditionsPage.steps| == 6;
    assert PagePositionsFrom(LabelPosition, HealthPages, 0, 10, 30);
  }

  lemma GoalsPositions()
    ensures PagePositionsFrom(LabelPosition, GoalsPages, 0, 30, 48)
  {
    assert PagePositionsFrom(LabelPosition, GoalsPages, 6, 48, 48);
    ConfirmationPositions();
    assert GoalsPages[5] == ConfirmationPage && |ConfirmationPage.steps| == 1;
    assert PagePositionsFrom(LabelPosition, GoalsPages, 5, 47, 48);
    MealPlanPositions();
    assert GoalsPages[4] == MealPlanPage && |MealPlanPage.steps| == 7;
    assert PagePositionsFrom(LabelPosition, GoalsPages, 4, 40, 48);
    GroceryBudgetPositions();
    assert GoalsPages[3] == GroceryBudgetPage && |GroceryBudgetPage.steps| == 1;
    assert PagePositionsFrom(LabelPosition, GoalsPages, 3, 39, 48);
    GroceryPreferencesPositions();
    assert GoalsPages[2] == GroceryPreferencesPage && |GroceryPreferencesPage.steps| == 6;
    assert PagePositionsFrom(LabelPosition, GoalsPages, 2, 33, 48);
    CookingStylePositions();
    assert GoalsPages[1] == CookingStylePage && |CookingStylePage.steps| == 1;
    assert PagePositionsFrom(LabelPosition, GoalsPages, 1, 32, 48);
    TopGoalPositions();
    assert GoalsPages[0] == TopGoalPage && |TopGoalPage.steps| == 2;
    assert PagePositionsFrom(LabelPosition, GoalsPages, 0, 30, 48);
  }
}

=== FILE: onboarding_stepper.dfy ===
/** The onboarding screen: the engine over the configured questionnaire, with the page
    index and phase it tracks for the phase indicator, and the completion record it hands
    on stamped with the completion time. The clock is a parameter: each user event comes
    with the timestamp string `new Date().toISOString()` would give at that moment. */
module OnboardingStepper {
  import opened Stepper
  import opened OnboardingConfig
  import Whitespace

  /** The key the completion time is stored under. */
  const CompletedAtKey := "completedAt"

  /** The component's own state: `currentPageIndex` and `currentPhase`. */
  datatype Glue = Glue(pageIndex: int, phase: Phase)

  /** The glue is in step with the page index it records. */
  predicate PhaseMatches(g: Glue)
  {
    g.phase == PhaseForPageIndex(g.pageIndex)
  }

  /** The glue as mounted: `initialPage` and its phase. */
  function InitialGlue(initialPage: int): (g: Glue)
    ensures g.pageIndex == initialPage && PhaseMatches(g)
    ensures 0 <= initialPage < |FlattenedPages()| ==> InPhase(g.phase, initialPage)
  {
    GluePageChange(Glue(initialPage, Context), initialPage)
  }

  /** `handlePageChange`: record the index and the phase that covers it. */
  function GluePageChange(g: Glue, pageIndex: int): (r: Glue)
    ensures r.pageIndex == pageIndex && PhaseMatches(r)
    ensures 0 <= pageIndex < |FlattenedPages()| ==> InPhase(r.phase, pageIndex)
    ensures pageIndex < 0 ==> r.phase == Context
    ensures pageIndex >= |FlattenedPages()| ==> r.phase == Goals
  {
    PhaseThresholds(pageIndex);
    FlattenedPagesShape();
    var r := Glue(pageIndex, PhaseForPageIndex(pageIndex));
    if 0 <= pageIndex < |FlattenedPages()| then PhasePartition(pageIndex); r else r
  }

  /** `handleComplete`: the answers spread into a new record, then the completion time,
      which replaces any answer filed under the same key. */
  function HandleComplete(values: Answers, now: string): (r: Answers)
    ensures r.Keys == values.Keys + {CompletedAtKey}
    ensures r[CompletedAtKey] == now
    ensures forall k :: k in values && k != CompletedAtKey ==> r[k] == values[k]
  {
    values[CompletedAtKey := now]
  }

  /** No configured step is labelled `completedAt`, so the stamp never hides an answer. */
  lemma CompletedAtIsFresh()
    ensures CompletedAtKey !in LabelSet(AllSteps(FlattenedPages()))
  {
    LabelsUnique();
    assert LabelPosition(CompletedAtKey) == -1;
  }

  /** A user event together with the time it happens. */
  datatype Tick = Tick(event: Event, now: string)

  /** The whole screen: the engine's state and the glue's. */
  datatype Flow = Flow(stepper: State, glue: Glue)

  /** The glue and the engine agree: the engine runs over the flattened pages, and the
      glue holds the engine's index and its phase. */
  predicate Synced(f: Flow)
  {
    f.stepper.pages == FlattenedPages() && f.glue.pageIndex == f.stepper.index && PhaseMatches(f.glue)
  }

  /** Each answer map stamped with the same completion time. */
  function StampAll(vs: seq<Answers>, now: string): (r: seq<Answers>)
    ensures |r| == |vs|
  {
    seq(|vs|, k requires 0 <= k < |vs| => HandleComplete(vs[k], now))
  }

  /** The engine's notices delivered to the screen's handlers: page changes update the
      glue, completions become stamped records for the screen's `onComplete`. Every
      completion is handed on, once, in order, and nothing else is. */
  function Deliver(g: Glue, ns: seq<Notice>, now: string): (r: (Glue, seq<Answers>))
    ensures (forall k :: 0 <= k < |ns| ==> ns[k].Completed?) ==> r.0 == g
    ensures r.1 == StampAll(Completions(ns), now)
    decreases |ns|
  {
    if ns == [] then (g, [])
    else
      var rest := Deliver(match ns[0] case PageChanged(i) => GluePageChange(g, i) case Completed(_) => g,
                          ns[1..], now);
      match ns[0]
      case PageChanged(_) => rest
      case Completed(v) =>
        assert StampAll(Completions(ns), now) == [HandleComplete(v, now)] + rest.1;
        (rest.0, [HandleComplete(v, now)] + rest.1)
  }

  /** Mounting the screen on `initialPage`: the engine is initialised over the flattened
      pages, and its mount-time page change reaches the glue. */
  function StartFlow(initialPage: int): (r: Flow)
    ensures r.stepper == Init(FlattenedPages(), initialPage).state
    ensures Synced(r) && r.stepper.index == initialPage
    ensures r.stepper.values.Keys == LabelSet(AllSteps(FlattenedPages()))
  {
    var t := Init(FlattenedPages(), initialPage);
    Flow(t.state, GluePageChange(InitialGlue(initialPage), initialPage))
  }

  /** One timed event, with the engine's answers kept across page moves: the engine
      reacts, the screen's index and phase follow it, and each completion it reports is
      handed on stamped with the event's time. */
  function FlowStep(f: Flow, tick: Tick): (r: (Flow, seq<Answers>))
    ensures r.0.stepper == Dispatch(f.stepper, tick.event).state
    ensures Synced(f) ==> Synced(r.0)
    ensures r.1 == StampAll(Completions(Dispatch(f.stepper, tick.event).notices), tick.now)
  {
    var t := Dispatch(f.stepper, tick.event);
    var (g, out) := Deliver(f.glue, t.notices, tick.now);
    assert Synced(f) ==> Synced(Flow(t.state, g)) by {
      if Synced(f) {
        DispatchReportsMoves(f.stepper, tick.event);
        if t.notices != [] && t.notices[0].PageChanged? {
          assert t.notices == [t.notices[0]];
          assert PageChanged(t.notices[0].index) in t.notices;
        } else if t.notices != [] {
          assert t.notices == [t.notices[0]];
        }
      }
    }
    (Flow(t.state, g), out)
  }

  /** A sequence of timed events, with every record handed on, in order. */
  function FlowRun(f: Flow, ticks: seq<Tick>): (r: (Flow, seq<Answers>))
    decreases |ticks|
  {
    if ticks == [] then (f, [])
    else
      var (f1, out1) := FlowStep(f, ticks[0]);
      var (f2, out2) := FlowRun(f1, ticks[1..]);
      (f2, out1 + out2)
  }

  /** The events of a timed run. */
  function Events(ticks: seq<Tick>): (r: seq<Event>)
    ensures |r| == |ticks| && forall k :: 0 <= k < |ticks| ==> r[k] == ticks[k].event
  {
    seq(|ticks|, k requires 0 <= k < |ticks| => ticks[k].event)
  }

  // ---------------------------------------------------------------------------
  // Properties
  // ---------------------------------------------------------------------------

  /** Each event keeps the phase indicator in step with the engine's page. */
  lemma FlowStepKeepsSynced(f: Flow, tick: Tick)
    requires Synced(f)
    ensures Synced(FlowStep(f, tick).0)
  {
  }

  /** Next on a valid last page hands on exactly one record, the engine's answers
      stamped with the time, and changes nothing on screen. */
  lemma LastPageNextHandsOnRecord(f: Flow, now: string)
    requires Synced(f) && f.stepper.valid && f.stepper.index == |f.stepper.pages| - 1
    ensures FlowStep(f, Tick(PressNext, now)) == (f, [HandleComplete(f.stepper.values, now)])
  {
    FlattenedPagesShape();
    var t := Dispatch(f.stepper, PressNext);
    assert t == Transition(f.stepper, [Completed(f.stepper.values)]);
    assert Completions(t.notices) == [f.stepper.values];
    assert StampAll([f.stepper.values], now) == [HandleComplete(f.stepper.values, now)];
  }

  /** Over any run, the phase indicator shows the phase of the engine's page. */
  lemma {:induction false} FlowRunKeepsSynced(f: Flow, ticks: seq<Tick>)
    requires Synced(f)
    ensures Synced(FlowRun(f, ticks).0)
    ensures FlowRun(f, ticks).0.stepper == Run(f.stepper, Events(ticks)).state
    decreases |ticks|
  {
    if ticks != [] {
      FlowStepKeepsSynced(f, ticks[0]);
      FlowRunKeepsSynced(FlowStep(f, ticks[0]).0, ticks[1..]);
      assert Events(ticks)[1..] == Events(ticks[1..]);
    }
  }

  /** Every record the screen hands on is an engine completion with the time added. */
  lemma {:induction false} DeliverStamps(g: Glue, ns: seq<Notice>, now: string, rec: Answers)
    requires rec in Deliver(g, ns, now).1
    ensures exists v :: Completed(v) in ns && rec == HandleComplete(v, now)
    decreases |ns|
  {
    var g1 := match ns[0] case PageChanged(i) => GluePageChange(g, i) case Completed(_) => g;
    if rec in Deliver(g1, ns[1..], now).1 {
      DeliverStamps(g1, ns[1..], now, rec);
      var v :| Completed(v) in ns[1..] && rec == HandleComplete(v, now);
      assert Completed(v) in ns;
    } else {
      assert Completed(ns[0].values) in ns;
    }
  }

  /** Every record handed on during a run is the stamped form of an answer map the engine
      completed with during the same run. */
  lemma {:induction false} FlowRunRecordsAreCompletions(f: Flow, ticks: seq<Tick>, rec: Answers)
    requires rec in FlowRun(f, ticks).1
    ensures exists v, now ::
      && Completed(v) in Run(f.stepper, Events(ticks)).notices
      && HasTickAt(ticks, now)
      && rec == HandleComplete(v, now)
    decreases |ticks|
  {
    var t := Dispatch(f.stepper, ticks[0].event);
    var f1 := FlowStep(f, ticks[0]).0;
    var rest := Run(t.state, Events(ticks)[1..]);
    assert Events(ticks)[1..] == Events(ticks[1..]);
    assert Run(f.stepper, Events(ticks)).notices == t.notices + rest.notices;
    if rec in FlowStep(f, ticks[0]).1 {
      DeliverStamps(f.glue, t.notices, ticks[0].now, rec);
      assert HasTickAt(ticks, ticks[0].now);
    } else {
      FlowRunRecordsAreCompletions(f1, ticks[1..], rec);
      var v, now :| && Completed(v) in Run(f1.stepper, Events(ticks[1..])).notices
                    && HasTickAt(ticks[1..], now) && rec == HandleComplete(v, now);
      var j :| 0 <= j < |ticks[1..]| && ticks[1..][j].now == now;
      assert ticks[j + 1].now == now;
      assert Completed(v) in Run(f.stepper, Events(ticks)).notices;
    }
  }

  /** A record handed on after mounting holds an answer under every configured label,
      and the completion time. */
  lemma CompletionRecordIsComplete(initialPage: int, ticks: seq<Tick>, rec: Answers)
    requires rec in FlowRun(StartFlow(initialPage), ticks).1
    ensures LabelSet(AllSteps(FlattenedPages())) + {CompletedAtKey} <= rec.Keys
  {
    var f := StartFlow(initialPage);
    FlowRunRecordsAreCompletions(f, ticks, rec);
    var v, now :| Completed(v) in Run(f.stepper, Events(ticks)).notices && rec == HandleComplete(v, now);
    RunKeepsKeys(f.stepper, Events(ticks));
  }

  /** Reference account of a timed run, on the engine alone: each completion it
      reports, paired with the time of the event that caused it, in order. */
  function TimedCompletions(s: State, ticks: seq<Tick>): seq<(Answers, string)>
    decreases |ticks|
  {
    if ticks == [] then []
    else
      var t := Dispatch(s, ticks[0].event);
      var vs := Completions(t.notices);
      seq(|vs|, k requires 0 <= k < |vs| => (vs[k], ticks[0].now)) + TimedCompletions(t.state, ticks[1..])
  }

  /** The reference lists the run's completions, in order, each with the time of one of
      the run's events. */
  lemma {:induction false} TimedCompletionsAreRunCompletions(s: State, ticks: seq<Tick>)
    ensures var tc := TimedCompletions(s, ticks);
      && |tc| == |Completions(Run(s, Events(ticks)).notices)|
      && (forall k :: 0 <= k < |tc| ==> tc[k].0 == Completions(Run(s, Events(ticks)).notices)[k])
      && (forall k :: 0 <= k < |tc| ==> HasTickAt(ticks, tc[k].1))
    decreases |ticks|
  {
    if ticks != [] {
      var t := Dispatch(s, ticks[0].event);
      var rest := Run(t.state, Events(ticks)[1..]);
      assert Events(ticks)[1..] == Events(ticks[1..]);
      assert Run(s, Events(ticks)).notices == t.notices + rest.notices;
      CompletionsAppend(t.notices, rest.notices);
      TimedCompletionsAreRunCompletions(t.state, ticks[1..]);
      var tc1 := TimedCompletions(t.state, ticks[1..]);
      forall k | 0 <= k < |tc1| ensures HasTickAt(ticks, tc1[k].1) {
        var j :| 0 <= j < |ticks[1..]| && ticks[1..][j].now == tc1[k].1;
        assert ticks[j + 1].now == tc1[k].1;
      }
    }
  }

  /** Some event of the run happens at `now`. */
  predicate HasTickAt(ticks: seq<Tick>, now: string)
  {
    exists j :: 0 <= j < |ticks| && ticks[j].now == now
  }

  /** Each completion of the reference stamped with its own time. */
  function StampTimed(tc: seq<(Answers, string)>): (r: seq<Answers>)
    ensures |r| == |tc|
  {
    seq(|tc|, k requires 0 <= k < |tc| => HandleComplete(tc[k].0, tc[k].1))
  }

  /** The screen hands on exactly the reference's completions, each stamped with the
      time of the event that caused it. */
  lemma {:induction false} FlowRunStampsEachCompletion(f: Flow, ticks: seq<Tick>)
    ensures FlowRun(f, ticks).1 == StampTimed(TimedCompletions(f.stepper, ticks))
    decreases |ticks|
  {
    if ticks != [] {
      var t := Dispatch(f.stepper, ticks[0].event);
      var vs := Completions(t.notices);
      var first := seq(|vs|, k requires 0 <= k < |vs| => (vs[k], ticks[0].now));
      var rest := TimedCompletions(t.state, ticks[1..]);
      FlowRunStampsEachCompletion(FlowStep(f, ticks[0]).0, ticks[1..]);
      StampTimedAppend(first, rest);
      StampTimedOneTime(vs, ticks[0].now);
    }
  }

  lemma StampTimedAppend(a: seq<(Answers, string)>, b: seq<(Answers, string)>)
    ensures StampTimed(a + b) == StampTimed(a) + StampTimed(b)
  {
    assert forall k :: 0 <= k < |a| ==> (a + b)[k] == a[k];
    assert forall k :: |a| <= k < |a| + |b| ==> (a + b)[k] == b[k - |a|];
  }

  lemma StampTimedOneTime(vs: seq<Answers>, now: string)
    ensures StampTimed(seq(|vs|, k requires 0 <= k < |vs| => (vs[k], now))) == StampAll(vs, now)
  {
  }

  /** Exactly one record per completion of the engine, in the engine's order, each the
      completed answers stamped with the time of the event that completed them. */
  lemma OneRecordPerCompletion(f: Flow, ticks: seq<Tick>)
    ensures var cs := Completions(Run(f.stepper, Events(ticks)).notices);
      && |FlowRun(f, ticks).1| == |cs| == |TimedCompletions(f.stepper, ticks)|
      && forall k :: 0 <= k < |cs| ==>
        FlowRun(f, ticks).1[k] == HandleComplete(cs[k], TimedCompletions(f.stepper, ticks)[k].1)
  {
    FlowRunStampsEachCompletion(f, ticks);
    TimedCompletionsAreRunCompletions(f.stepper, ticks);
  }

  /** Seeding loses no default: every configured step's label is answered with that
      step's default before the user does anything. */
  lemma SeedKeepsEveryDefault()
    ensures forall i :: 0 <= i < |AllSteps(FlattenedPages())| ==>
      AllSteps(FlattenedPages())[i].name in Seed(FlattenedPages()) &&
      Seed(FlattenedPages())[AllSteps(FlattenedPages())[i].name] == AllSteps(FlattenedPages())[i].defaultValue
  {
    LabelsUnique();
    SeedDefaultsUnique(FlattenedPages());
  }

  /** The first two steps of the flat step list: "Get Started", then "Age". */
  lemma FirstSteps()
    ensures |AllSteps(FlattenedPages())| > 1
    ensures AllSteps(FlattenedPages())[0] == WelcomePage.steps[0]
    ensures AllSteps(FlattenedPages())[1] == AboutYouPage.steps[0]
  {
    var pages := FlattenedPages();
    FlattenedPagesShape();
    assert pages[0] == WelcomePage && pages[1..][0] == AboutYouPage;
    assert AllSteps(pages) == WelcomePage.steps + AllSteps(pages[1..]);
    assert AllSteps(pages[1..]) == AboutYouPage.steps + AllSteps(pages[2..]);
  }

  /** The seeded answer to "Get Started" is its default, "start". */
  lemma GetStartedSeeded()
    ensures "Get Started" in Seed(FlattenedPages()) && Seed(FlattenedPages())["Get Started"] == "start"
  {
    SeedKeepsEveryDefault();
    FirstSteps();
  }

  /** "Welcome" is filled as soon as "Get Started" holds "start". */
  lemma WelcomeFilledWhenStarted(values: Answers)
    requires "Get Started" in values && values["Get Started"] == "start"
    ensures RequiredNotBlank(WelcomePage.steps, values)
  {
    var steps := WelcomePage.steps;
    assert |steps| == 1 && steps[0].name == "Get Started";
    assert !Whitespace.IsWhitespace(values["Get Started"][0]);
  }

  /** The first page's required step is answered by the seeded values. */
  lemma WelcomeFilledBySeed()
    ensures |FlattenedPages()| > 0
    ensures RequiredNotBlank(FlattenedPages()[0].steps, Seed(FlattenedPages()))
  {
    FlattenedPagesShape();
    GetStartedSeeded();
    WelcomeFilledWhenStarted(Seed(FlattenedPages()));
    assert FlattenedPages()[0] == ContextPages[0] == WelcomePage;
  }

  /** Mounted on the first page, the screen lets the user go on at once: the default of
      "Get Started" fills the page's one required step. */
  lemma WelcomeValidOnMount()
    ensures StartFlow(0).stepper.valid
  {
    WelcomeFilledBySeed();
  }

  /** "About You" is not filled while "Age" is empty. */
  lemma AboutYouBlankWhileAgeEmpty(values: Answers)
    requires "Age" in values ==> values["Age"] == ""
    ensures !RequiredNotBlank(AboutYouPage.steps, values)
  {
    assert AboutYouPage.steps[0].name == "Age" && AboutYouPage.steps[0].required;
  }

  /** The second page's required steps are not answered by the seeded values. */
  lemma AboutYouUnfilledBySeed()
    ensures |FlattenedPages()| > 1
    ensures !RequiredNotBlank(FlattenedPages()[1].steps, Seed(FlattenedPages()))
  {
    FlattenedPagesShape();
    SeedKeepsEveryDefault();
    FirstSteps();
    AboutYouBlankWhileAgeEmpty(Seed(FlattenedPages()));
    assert FlattenedPages()[1] == ContextPages[1] == AboutYouPage;
  }

  /** On any page list whose first page the defaults fill and whose second they do not,
      two presses of Next from mount stop on the second page without completing. */
  lemma SecondPageStops(pages: seq<Page>)
    requires |pages| > 2
    requires RequiredNotBlank(pages[0].steps, Seed(pages))
    requires !RequiredNotBlank(pages[1].steps, Seed(pages))
    ensures Run(Init(pages, 0).state, [PressNext, PressNext]).state.index == 1
    ensures forall v :: Completed(v) !in Run(Init(pages, 0).state, [PressNext, PressNext]).notices
  {
    var s0 := Init(pages, 0).state;
    var s1 := Dispatch(s0, PressNext).state;
    assert s1.index == 1 && !s1.valid;
    assert [PressNext, PressNext][1..] == [PressNext];
    assert Run(s1, [PressNext]) == Transition(s1, []);
  }

  /** A run in which the engine does not complete hands nothing on. */
  lemma FlowRunQuietWithoutCompletion(f: Flow, ticks: seq<Tick>)
    requires forall v :: Completed(v) !in Run(f.stepper, Events(ticks)).notices
    ensures FlowRun(f, ticks).1 == []
  {
    var out := FlowRun(f, ticks).1;
    if out != [] {
      FlowRunRecordsAreCompletions(f, ticks, out[0]);
      assert false;
    }
  }

  /** The engine over the questionnaire, pressed Next twice from mount, stops on the
      second page without completing. */
  lemma EngineStopsOnAboutYou()
    ensures Run(Init(FlattenedPages(), 0).state, [PressNext, PressNext]).state.index == 1
    ensures forall v :: Completed(v) !in Run(Init(FlattenedPages(), 0).state, [PressNext, PressNext]).notices
  {
    WelcomeFilledBySeed();
    AboutYouUnfilledBySeed();
    FlattenedPagesShape();
    SecondPageStops(FlattenedPages());
  }

  /** "About You" holds the user back until it is answered: a second Next without edits
      leaves the screen there, and no record is handed on. */
  lemma AboutYouNeedsAnswers(t1: string, t2: string)
    ensures FlowRun(StartFlow(0), [Tick(PressNext, t1), Tick(PressNext, t2)]).0.stepper.index == 1
    ensures FlowRun(StartFlow(0), [Tick(PressNext, t1), Tick(PressNext, t2)]).1 == []
  {
    var ticks := [Tick(PressNext, t1), Tick(PressNext, t2)];
    var f := StartFlow(0);
    EngineStopsOnAboutYou();
    assert Events(ticks) == [PressNext, PressNext];
    FlowRunKeepsSynced(f, ticks);
    FlowRunQuietWithoutCompletion(f, ticks);
  }

  // ---------------------------------------------------------------------------
  // Page moves and the answers
  // ---------------------------------------------------------------------------

  /** Next and Back keep every answer: over any run of page moves the engine's answer map
      is the one the user left. */
  lemma {:induction false} MovesKeepAnswers(f: Flow, ticks: seq<Tick>)
    requires forall k :: 0 <= k < |ticks| ==> ticks[k].event == PressNext || ticks[k].event == PressBack
    ensures FlowRun(f, ticks).0.stepper.values == f.stepper.values
    decreases |ticks|
  {
    if ticks != [] {
      var f1 := FlowStep(f, ticks[0]).0;
      assert f1.stepper.values == f.stepper.values;
      MovesKeepAnswers(f1, ticks[1..]);
    }
  }

  /** One timed event as the screen behaves when rendered. A page move changes the
      screen's own index, its re-render builds a fresh page array, and the engine's
      seeding effect, keyed on that array, runs again: the answers go back to their
      defaults and validity is settled on them. */
  function FlowStepAsWritten(f: Flow, tick: Tick): (r: (Flow, seq<Answers>))
    ensures r.1 == FlowStep(f, tick).1
    ensures Synced(f) ==> Synced(r.0)
    ensures Synced(f) && r.0.stepper.index != f.stepper.index ==>
      r.0.stepper.values == Seed(FlattenedPages()) && Settled(r.0.stepper)
    ensures r.0.stepper.index == f.stepper.index ==> r == FlowStep(f, tick)
  {
    var (f1, out) := FlowStep(f, tick);
    assert Synced(f) ==> Synced(f1) by {
      if Synced(f) { FlowStepKeepsSynced(f, tick); }
    }
    if f1.glue.pageIndex != f.glue.pageIndex then
      (f1.(stepper := Settle(f1.stepper.(values := Seed(f1.stepper.pages)))), out)
    else
      (f1, out)
  }

  /** "Age" is seeded empty. */
  lemma AgeSeededEmpty()
    ensures "Age" in Seed(FlattenedPages()) && Seed(FlattenedPages())["Age"] == ""
  {
    SeedKeepsEveryDefault();
    FirstSteps();
  }

  /** A filled "About You" page has a non-empty age. */
  lemma FilledAboutYouHasAge(values: Answers)
    requires RequiredNotBlank(AboutYouPage.steps, values)
    ensures "Age" in values && values["Age"] != ""
  {
    assert AboutYouPage.steps[0].name == "Age" && AboutYouPage.steps[0].required;
  }

  /** Next on a filled "About You" page: the engine keeps the age the user gave, while the
      screen as rendered hands it back as the empty default. */
  lemma AsWrittenForgetsAge(f: Flow, tick: Tick)
    requires Synced(f) && Settled(f.stepper) && f.stepper.index == 1 && f.stepper.valid
    requires tick.event == PressNext
    ensures "Age" in f.stepper.values && f.stepper.values["Age"] != ""
    ensures FlowStep(f, tick).0.stepper.values == f.stepper.values
    ensures "Age" in FlowStepAsWritten(f, tick).0.stepper.values
    ensures FlowStepAsWritten(f, tick).0.stepper.values["Age"] == ""
  {
    FlattenedPagesShape();
    assert f.stepper.pages[1] == ContextPages[1] == AboutYouPage;
    FilledAboutYouHasAge(f.stepper.values);
    assert FlowStep(f, tick).0.stepper.index == 2;
    AgeSeededEmpty();
  }
}

=== FILE: seqs.dfy ===
/** Order-preserving filtering of sequences, the counterpart of `Array.prototype.filter`,
    and the subsequence relation it establishes. */
module Seqs {

  /** The elements of `s` that satisfy `p`, in their original order. */
  function Filter<T>(p: T -> bool, s: seq<T>): (r: seq<T>)
    ensures |r| <= |s|
    ensures forall i :: 0 <= i < |r| ==> p(r[i])
    decreases |s|
  {
    if s == [] then []
    else if p(s[0]) then [s[0]] + Filter(p, s[1..])
    else Filter(p, s[1..])
  }

  /** The number of elements of `s` that satisfy `p`. */
  function Count<T>(p: T -> bool, s: seq<T>): nat
    decreases |s|
  {
    if s == [] then 0 else (if p(s[0]) then 1 else 0) + Count(p, s[1..])
  }

  /** `a` is obtained from `b` by deleting elements, keeping the rest in order. */
  predicate IsSubsequence<T(==)>(a: seq<T>, b: seq<T>)
    decreases |b|
  {
    if a == [] then true
    else if b == [] then false
    else if a[0] == b[0] then IsSubsequence(a[1..], b[1..])
    else IsSubsequence(a, b[1..])
  }

  lemma {:induction false} FilterIsSubsequence<T>(p: T -> bool, s: seq<T>)
    ensures IsSubsequence(Filter(p, s), s)
    decreases |s|
  {
    if s != [] {
      FilterIsSubsequence(p, s[1..]);
      var r := Filter(p, s[1..]);
      if p(s[0]) {
        assert ([s[0]] + r)[1..] == r;
      }
    }
  }

  lemma {:induction false} FilterLength<T>(p: T -> bool, s: seq<T>)
    ensures |Filter(p, s)| == Count(p, s)
    decreases |s|
  {
    if s != [] {
      FilterLength(p, s[1..]);
    }
  }

  /** An element survives filtering exactly when it occurs in `s` and satisfies `p`. */
  lemma {:induction false} FilterMembership<T>(p: T -> bool, s: seq<T>, x: T)
    ensures x in Filter(p, s) <==> x in s && p(x)
    decreases |s|
  {
    if s != [] {
      FilterMembership(p, s[1..], x);
      assert s == [s[0]] + s[1..];
    }
  }

  /** Filtering with a predicate that holds everywhere on `s` is the identity. */
  lemma {:induction false} FilterKeepsAll<T>(p: T -> bool, s: seq<T>)
    requires forall i :: 0 <= i < |s| ==> p(s[i])
    ensures Filter(p, s) == s
    decreases |s|
  {
    if s != [] {
      FilterKeepsAll(p, s[1..]);
      assert s == [s[0]] + s[1..];
    }
  }

  /** Filtering leaves something exactly when some element satisfies `p`. */
  lemma {:induction false} FilterNonEmpty<T>(p: T -> bool, s: seq<T>)
    ensures Filter(p, s) != [] <==> exists i :: 0 <= i < |s| && p(s[i])
    decreases |s|
  {
    if s != [] {
      FilterNonEmpty(p, s[1..]);
      if !p(s[0]) && exists i :: 0 <= i < |s| && p(s[i]) {
        var i :| 0 <= i < |s| && p(s[i]);
        assert s[1..][i - 1] == s[i];
      }
    }
  }
}

=== FILE: stepper.dfy ===
/** The onboarding stepper engine: a page list, the index of the page on screen, the
    answer map keyed by step label and the validity flag of the current page. The
    React effects of the component are modelled by their settled outcome: after every
    transition the validity flag is recomputed at once (`Settle`), and a change of page
    index is reported as a `PageChanged` notice. */
module Stepper {
  import opened Wrappers
  import opened Whitespace

  /** The answer map: step label to the value last entered (checkboxes and switches
      store "true" / "false"). */
  type Answers = map<string, string>

  datatype StepKind = Text | Input | Select | Checkbox | Radio | Switch

  /** One form control. `name` is the source's `label` (a Dafny keyword), the key of
      its entry in the answer map; `required` absent in the source reads as false. */
  datatype Step = Step(
    name: string,
    kind: StepKind,
    value: string,
    defaultValue: string,
    options: Option<seq<string>>,
    placeholder: Option<string>,
    required: bool)

  datatype Page = Page(title: string, copy: string, steps: seq<Step>)

  /** The steps of every page, page after page. */
  function AllSteps(pages: seq<Page>): seq<Step>
    decreases |pages|
  {
    if pages == [] then [] else pages[0].steps + AllSteps(pages[1..])
  }

  lemma {:induction false} AllStepsAppend(a: seq<Page>, b: seq<Page>)
    ensures AllSteps(a + b) == AllSteps(a) + AllSteps(b)
    decreases |a|
  {
    if a == [] {
      assert a + b == b;
    } else {
      assert (a + b)[0] == a[0] && (a + b)[1..] == a[1..] + b;
      AllStepsAppend(a[1..], b);
    }
  }

  /** Every entry of the flattened step list is a step of one of the pages. */
  lemma {:induction false} AllStepsIndex(pages: seq<Page>, k: int)
    requires 0 <= k < |AllSteps(pages)|
    ensures exists p, j ::
      0 <= p < |pages| && 0 <= j < |pages[p].steps| && AllSteps(pages)[k] == pages[p].steps[j]
    decreases |pages|
  {
    if k < |pages[0].steps| {
      assert AllSteps(pages)[k] == pages[0].steps[k];
    } else {
      AllStepsIndex(pages[1..], k - |pages[0].steps|);
      var p, j :| 0 <= p < |pages[1..]| && 0 <= j < |pages[1..][p].steps| &&
        AllSteps(pages[1..])[k - |pages[0].steps|] == pages[1..][p].steps[j];
      assert AllSteps(pages)[k] == pages[p + 1].steps[j];
    }
  }

  function LabelSet(steps: seq<Step>): set<string>
  {
    set i | 0 <= i < |steps| :: steps[i].name
  }

  /** No later step in `steps` carries the label of `steps[i]`. */
  predicate LastWithLabel(steps: seq<Step>, i: int)
  {
    0 <= i < |steps| && forall j :: i < j < |steps| ==> steps[j].name != steps[i].name
  }

  /** Step labels are pairwise distinct. */
  predicate UniqueLabels(steps: seq<Step>)
  {
    forall i, j :: 0 <= i < j < |steps| ==> steps[i].name != steps[j].name
  }

  // ---------------------------------------------------------------------------
  // Seeding the answer map with default values
  // ---------------------------------------------------------------------------

  /** The inner `forEach` of the seeding reduce: each step writes its default under its
      label, so a later step overwrites an earlier one with the same label. */
  function SeedSteps(acc: Answers, steps: seq<Step>): Answers
    decreases |steps|
  {
    if steps == [] then acc
    else SeedSteps(acc[steps[0].name := steps[0].defaultValue], steps[1..])
  }

  /** Seeding adds exactly the labels of `steps`, leaves other entries alone, and each
      label ends up with the default of its last occurrence. */
  lemma {:induction false} SeedStepsSpec(acc: Answers, steps: seq<Step>)
    ensures SeedSteps(acc, steps).Keys == acc.Keys + LabelSet(steps)
    ensures forall k :: k in acc && k !in LabelSet(steps) ==> SeedSteps(acc, steps)[k] == acc[k]
    ensures forall i :: LastWithLabel(steps, i) ==>
      SeedSteps(acc, steps)[steps[i].name] == steps[i].defaultValue
    decreases |steps|
  {
    if steps != [] {
      var acc' := acc[steps[0].name := steps[0].defaultValue];
      SeedStepsSpec(acc', steps[1..]);
      assert LabelSet(steps) == {steps[0].name} + LabelSet(steps[1..]) by {
        forall k | k in LabelSet(steps) ensures k in {steps[0].name} + LabelSet(steps[1..]) {
          var i :| 0 <= i < |steps| && steps[i].name == k;
          if i > 0 { assert steps[1..][i - 1] == steps[i]; }
        }
      }
      assert forall i :: LastWithLabel(steps, i) && i > 0 ==> LastWithLabel(steps[1..], i - 1);
      assert LastWithLabel(steps, 0) ==> steps[0].name !in LabelSet(steps[1..]);
    }
  }

  /** The outer `reduce` of the seeding effect, page by page. */
  function SeedPages(acc: Answers, pages: seq<Page>): Answers
    decreases |pages|
  {
    if pages == [] then acc else SeedPages(SeedSteps(acc, pages[0].steps), pages[1..])
  }

  /** The answer map the seeding effect installs for `pages`, starting from `{}`: every
      label of every page (not only the first) has an entry, there is no other entry, and
      each label holds the default of its last occurrence. */
  function Seed(pages: seq<Page>): (r: Answers)
    ensures r.Keys == LabelSet(AllSteps(pages))
    ensures forall i :: LastWithLabel(AllSteps(pages), i) ==>
      r[AllSteps(pages)[i].name] == AllSteps(pages)[i].defaultValue
  {
    SeedPagesFlattens(map[], pages);
    SeedStepsSpec(map[], AllSteps(pages));
    SeedPages(map[], pages)
  }

  lemma {:induction false} SeedStepsAppend(acc: Answers, a: seq<Step>, b: seq<Step>)
    ensures SeedSteps(acc, a + b) == SeedSteps(SeedSteps(acc, a), b)
    decreases |a|
  {
    if a != [] {
      var acc' := acc[a[0].name := a[0].defaultValue];
      assert (a + b)[0] == a[0] && (a + b)[1..] == a[1..] + b;
      calc {
        SeedSteps(acc, a + b);
        SeedSteps(acc', a[1..] + b);
        { SeedStepsAppend(acc', a[1..], b); }
        SeedSteps(SeedSteps(acc', a[1..]), b);
      }
    } else {
      assert a + b == b;
    }
  }

  /** Seeding page by page equals seeding the concatenation of all pages' steps. */
  lemma {:induction false} SeedPagesFlattens(acc: Answers, pages: seq<Page>)
    ensures SeedPages(acc, pages) == SeedSteps(acc, AllSteps(pages))
    decreases |pages|
  {
    if pages != [] {
      SeedPagesFlattens(SeedSteps(acc, pages[0].steps), pages[1..]);
      SeedStepsAppend(acc, pages[0].steps, AllSteps(pages[1..]));
    }
  }

  /** With unique labels seeding loses nothing: every step's default is in the map. */
  lemma SeedDefaultsUnique(pages: seq<Page>)
    requires UniqueLabels(AllSteps(pages))
    ensures forall i :: 0 <= i < |AllSteps(pages)| ==>
      AllSteps(pages)[i].name in Seed(pages) &&
      Seed(pages)[AllSteps(pages)[i].name] == AllSteps(pages)[i].defaultValue
  {
    var steps := AllSteps(pages);
    forall i | 0 <= i < |steps|
      ensures steps[i].name in Seed(pages) && LastWithLabel(steps, i)
    {
      assert steps[i].name in LabelSet(steps);
      assert forall j :: i < j < |steps| ==> steps[i].name != steps[j].name;
    }
  }

  // ---------------------------------------------------------------------------
  // Validity of a page
  // ---------------------------------------------------------------------------

  /** The test applied to a required step's value: present, truthy (a non-empty string)
      and not empty after `trim()`. */
  predicate Filled(values: Answers, name: string)
  {
    name in values && values[name] != "" && Trim(values[name]) != ""
  }

  /** `steps.every(...)`: each required step is filled; other steps pass. */
  function AllRequiredFilled(steps: seq<Step>, values: Answers): (r: bool)
    ensures r <==> forall i :: 0 <= i < |steps| && steps[i].required ==> Filled(values, steps[i].name)
    decreases |steps|
  {
    if steps == [] then true
    else (!steps[0].required || Filled(values, steps[0].name)) && AllRequiredFilled(steps[1..], values)
  }

  /** The validity rule: each required step has an entry that is not blank. */
  predicate RequiredNotBlank(steps: seq<Step>, values: Answers)
  {
    forall i :: 0 <= i < |steps| && steps[i].required ==>
      steps[i].name in values && !IsBlank(values[steps[i].name])
  }

  /** The source's check and the validity rule agree on every page and answer map. */
  lemma {:induction false} ValidIffRequiredNotBlank(steps: seq<Step>, values: Answers)
    ensures AllRequiredFilled(steps, values) <==> RequiredNotBlank(steps, values)
    decreases |steps|
  {
    if steps != [] {
      ValidIffRequiredNotBlank(steps[1..], values);
      assert forall i :: 0 < i < |steps| ==> steps[1..][i - 1] == steps[i];
    }
  }

  /** A page without required steps is valid whatever the answers are. */
  lemma NoRequiredAlwaysValid(steps: seq<Step>, values: Answers)
    requires forall i :: 0 <= i < |steps| ==> !steps[i].required
    ensures AllRequiredFilled(steps, values)
  {
    ValidIffRequiredNotBlank(steps, values);
  }

  /** Only required steps' entries matter: two answer maps that agree on them give the
      same validity. */
  lemma ValidityDependsOnRequiredOnly(steps: seq<Step>, v1: Answers, v2: Answers)
    requires forall i :: 0 <= i < |steps| && steps[i].required ==>
      (steps[i].name in v1 <==> steps[i].name in v2)
    requires forall i :: 0 <= i < |steps| && steps[i].required && steps[i].name in v1 ==>
      v1[steps[i].name] == v2[steps[i].name]
    ensures AllRequiredFilled(steps, v1) == AllRequiredFilled(steps, v2)
  {
    ValidIffRequiredNotBlank(steps, v1);
    ValidIffRequiredNotBlank(steps, v2);
  }

  // ---------------------------------------------------------------------------
  // The state machine
  // ---------------------------------------------------------------------------

  datatype State = State(pages: seq<Page>, index: int, values: Answers, valid: bool)

  /** What the engine reports to its host: `onPageChange(index)` and `onComplete(values)`. */
  datatype Notice = PageChanged(index: int) | Completed(values: Answers)

  datatype Transition = Transition(state: State, notices: seq<Notice>)

  /** The answer maps the completions among `ns` carry, in order. */
  function Completions(ns: seq<Notice>): (r: seq<Answers>)
    ensures |r| <= |ns|
    decreases |ns|
  {
    if ns == [] then []
    else (match ns[0] case Completed(v) => [v] case PageChanged(_) => []) + Completions(ns[1..])
  }

  lemma {:induction false} CompletionsAppend(a: seq<Notice>, b: seq<Notice>)
    ensures Completions(a + b) == Completions(a) + Completions(b)
    decreases |a|
  {
    if a == [] {
      assert a + b == b;
    } else {
      assert (a + b)[0] == a[0] && (a + b)[1..] == a[1..] + b;
      CompletionsAppend(a[1..], b);
    }
  }

  /** `pages[currentPageIndex]`, which is undefined outside the list. */
  function CurrentPage(s: State): Option<Page>
  {
    if 0 <= s.index < |s.pages| then Some(s.pages[s.index]) else None
  }

  /** The index designates a page. */
  predicate InRange(s: State)
  {
    0 <= s.index < |s.pages|
  }

  /** The validity flag agrees with the rule for the current page (when there is one). */
  predicate Settled(s: State)
  {
    InRange(s) ==> (s.valid <==> RequiredNotBlank(s.pages[s.index].steps, s.values))
  }

  /** The validation effect: recompute validity of the current page, or keep the old
      flag when there is no current page. */
  function Settle(s: State): (r: State)
    ensures r.pages == s.pages && r.index == s.index && r.values == s.values
    ensures InRange(s) ==> (r.valid <==> RequiredNotBlank(s.pages[s.index].steps, s.values))
    ensures !InRange(s) ==> r.valid == s.valid
    ensures Settled(r)
  {
    match CurrentPage(s)
    case None => s
    case Some(page) =>
      ValidIffRequiredNotBlank(page.steps, s.values);
      s.(valid := AllRequiredFilled(page.steps, s.values))
  }

  /** Mounting the component: index `initialPage`, answers seeded from all pages,
      validity settled, and the mount-time `onPageChange(initialPage)`. */
  function Init(pages: seq<Page>, initialPage: int): (r: Transition)
    ensures r.state.pages == pages && r.state.index == initialPage
    ensures r.state.values == Seed(pages) && r.state.values.Keys == LabelSet(AllSteps(pages))
    ensures Settled(r.state)
    ensures r.notices == [PageChanged(initialPage)]
  {
    Transition(Settle(State(pages, initialPage, Seed(pages), true)), [PageChanged(initialPage)])
  }

  /** `handleInputChange`: overwrite one label's entry; the index does not move. */
  function InputChange(s: State, name: string, value: string): (r: Transition)
    ensures r.state.pages == s.pages && r.state.index == s.index && r.notices == []
    ensures r.state.values.Keys == s.values.Keys + {name}
    ensures r.state.values[name] == value
    ensures forall k :: k in s.values && k != name ==> r.state.values[k] == s.values[k]
    ensures Settled(r.state)
  {
    Transition(Settle(s.(values := s.values[name := value])), [])
  }

  /** `handleNext`: advance and report the new index, or on the last page hand the
      answers to `onComplete` and stay. */
  function HandleNext(s: State): (r: Transition)
    ensures r.state.pages == s.pages && r.state.values == s.values
    ensures s.index < |s.pages| - 1 ==>
      r.state.index == s.index + 1 && r.notices == [PageChanged(s.index + 1)]
    ensures s.index >= |s.pages| - 1 ==> r.state == s && r.notices == [Completed(s.values)]
    ensures InRange(s) ==> InRange(r.state)
    ensures Settled(s) ==> Settled(r.state)
  {
    if s.index < |s.pages| - 1 then
      Transition(Settle(s.(index := s.index + 1)), [PageChanged(s.index + 1)])
    else
      Transition(s, [Completed(s.values)])
  }

  /** `handlePrevious`: step back and report the new index; at index 0 nothing happens. */
  function HandlePrevious(s: State): (r: Transition)
    ensures r.state.pages == s.pages && r.state.values == s.values
    ensures s.index > 0 ==> r.state.index == s.index - 1 && r.notices == [PageChanged(s.index - 1)]
    ensures s.index <= 0 ==> r == Transition(s, [])
    ensures InRange(s) ==> InRange(r.state)
    ensures Settled(s) ==> Settled(r.state)
  {
    if s.index > 0 then
      Transition(Settle(s.(index := s.index - 1)), [PageChanged(s.index - 1)])
    else
      Transition(s, [])
  }

  /** What a user can do on the rendered page. */
  datatype Event = Edit(name: string, value: string) | PressNext | PressBack

  /** A user event as the rendered component lets it through: with no current page only
      "No pages available" is shown, the Next button is disabled while the page is
      invalid, and the Back button is disabled at index 0. An event the page allows
      reaches its handler: an edit updates the answer, an enabled Back moves back
      whatever the flag, and Next on a valid page moves on or completes. */
  function Dispatch(s: State, e: Event): (r: Transition)
    ensures r.state.pages == s.pages
    ensures InRange(s) ==> InRange(r.state)
    ensures Settled(s) ==> Settled(r.state)
    ensures InRange(s) && e.Edit? ==>
      && r.state.values == s.values[e.name := e.value]
      && r.state.index == s.index && r.notices == []
    ensures InRange(s) && e.PressBack? && s.index > 0 ==>
      && r.state.index == s.index - 1 && r.state.values == s.values
      && r.notices == [PageChanged(s.index - 1)]
    ensures InRange(s) && e.PressNext? && s.valid && s.index < |s.pages| - 1 ==>
      && r.state.index == s.index + 1 && r.state.values == s.values
      && r.notices == [PageChanged(s.index + 1)]
    ensures InRange(s) && e.PressNext? && s.valid && s.index == |s.pages| - 1 ==>
      r == Transition(s, [Completed(s.values)])
  {
    if CurrentPage(s).None? then Transition(s, [])
    else
      match e
      case Edit(name, value) => InputChange(s, name, value)
      case PressNext => if s.valid then HandleNext(s) else Transition(s, [])
      case PressBack => if s.index == 0 then Transition(s, []) else HandlePrevious(s)
  }

  /** A sequence of user events, with the notices they produce in order. */
  function Run(s: State, events: seq<Event>): Transition
    decreases |events|
  {
    if events == [] then Transition(s, [])
    else
      var t := Dispatch(s, events[0]);
      var rest := Run(t.state, events[1..]);
      Transition(rest.state, t.notices + rest.notices)
  }

  // ---------------------------------------------------------------------------
  // Properties of the state machine
  // ---------------------------------------------------------------------------

  /** On a page, Next does something exactly when the page is valid. */
  lemma NextActsIffValid(s: State)
    requires InRange(s)
    ensures Dispatch(s, PressNext) != Transition(s, []) <==> s.valid
  {
  }

  /** After an edit the flag is exactly the validity rule on the edited answers: an
      edit that fills the page's last missing required step enables Next, one that
      blanks a required step disables it. */
  lemma EditRevalidates(s: State, name: string, value: string)
    requires InRange(s)
    ensures Dispatch(s, Edit(name, value)).state.valid <==>
      RequiredNotBlank(s.pages[s.index].steps, s.values[name := value])
  {
  }

  /** With no current page (empty list or index outside it) every event is inert. */
  lemma NoCurrentPageInert(s: State, e: Event)
    requires !InRange(s)
    ensures Dispatch(s, e) == Transition(s, [])
  {
  }

  /** The index-bounds invariant: an index that starts in `[0, |pages| - 1]` stays there
      under any sequence of events, and the page list never changes. */
  lemma {:induction false} RunKeepsInRange(s: State, events: seq<Event>)
    requires InRange(s)
    ensures Run(s, events).state.pages == s.pages
    ensures InRange(Run(s, events).state)
    decreases |events|
  {
    if events != [] {
      RunKeepsInRange(Dispatch(s, events[0]).state, events[1..]);
    }
  }

  /** Completion is reported only for Next on the last page while it is valid, and it
      carries the current answers; the state is left as it was. */
  lemma CompletionOnlyFromValidLastPage(s: State, e: Event, v: Answers)
    requires Completed(v) in Dispatch(s, e).notices
    ensures e == PressNext && s.valid && 0 <= s.index == |s.pages| - 1
    ensures v == s.values && Dispatch(s, e).state == s
    ensures Settled(s) ==> RequiredNotBlank(s.pages[s.index].steps, v)
  {
  }

  /** Next is gated by validity: on an invalid page it does nothing. */
  lemma NextBlockedWhenInvalid(s: State)
    requires !s.valid
    ensures Dispatch(s, PressNext) == Transition(s, [])
  {
  }

  /** In a settled state, a required step of the current page that is missing or blank
      keeps Next from doing anything. */
  lemma NextBlockedOnBlankRequired(s: State, i: int)
    requires Settled(s) && InRange(s)
    requires 0 <= i < |s.pages[s.index].steps| && s.pages[s.index].steps[i].required
    requires var name := s.pages[s.index].steps[i].name; name !in s.values || IsBlank(s.values[name])
    ensures Dispatch(s, PressNext) == Transition(s, [])
  {
    assert !s.valid;
  }

  /** The validity flag never goes stale: any sequence of events keeps it equal to the
      rule for the current page. */
  lemma {:induction false} RunKeepsSettled(s: State, events: seq<Event>)
    requires Settled(s)
    ensures Run(s, events).state.pages == s.pages
    ensures Settled(Run(s, events).state)
    decreases |events|
  {
    if events != [] {
      RunKeepsSettled(Dispatch(s, events[0]).state, events[1..]);
    }
  }

  /** Whatever the user does after mounting, every completion carries answers that fill
      every required step of the last page. */
  lemma {:induction false} CompletionsFillLastPage(s: State, events: seq<Event>, v: Answers)
    requires Settled(s)
    requires Completed(v) in Run(s, events).notices
    ensures |s.pages| > 0 && RequiredNotBlank(s.pages[|s.pages| - 1].steps, v)
    decreases |events|
  {
    var t := Dispatch(s, events[0]);
    var rest := Run(t.state, events[1..]);
    if Completed(v) in t.notices {
      CompletionOnlyFromValidLastPage(s, events[0], v);
    } else {
      assert Completed(v) in rest.notices;
      CompletionsFillLastPage(t.state, events[1..], v);
    }
  }

  /** From mount, a completion is reported only with the last page's required steps
      answered, and never for an empty page list. */
  lemma CompletionFromMountIsValid(pages: seq<Page>, initialPage: int, events: seq<Event>, v: Answers)
    requires Completed(v) in Run(Init(pages, initialPage).state, events).notices
    ensures |pages| > 0 && RequiredNotBlank(pages[|pages| - 1].steps, v)
  {
    CompletionsFillLastPage(Init(pages, initialPage).state, events, v);
  }

  /** Back never depends on validity: both values of the flag give the same index and
      the same notices. */
  lemma BackIgnoresValidity(s: State)
    ensures Dispatch(s.(valid := true), PressBack).state.index ==
            Dispatch(s.(valid := false), PressBack).state.index
    ensures Dispatch(s.(valid := true), PressBack).notices ==
            Dispatch(s.(valid := false), PressBack).notices
  {
  }

  /** No event removes an entry from the answer map. */
  lemma {:induction false} RunKeepsKeys(s: State, events: seq<Event>)
    ensures s.values.Keys <= Run(s, events).state.values.Keys
    ensures forall v :: Completed(v) in Run(s, events).notices ==> s.values.Keys <= v.Keys
    decreases |events|
  {
    if events != [] {
      var t := Dispatch(s, events[0]);
      RunKeepsKeys(t.state, events[1..]);
      forall v | Completed(v) in t.notices
        ensures s.values.Keys <= v.Keys
      {
        CompletionOnlyFromValidLastPage(s, events[0], v);
      }
    }
  }

  /** Whatever the user does after mounting, a completion carries an entry for every
      step label of every page. */
  lemma CompletionHasEveryLabel(pages: seq<Page>, initialPage: int, events: seq<Event>, v: Answers)
    requires Completed(v) in Run(Init(pages, initialPage).state, events).notices
    ensures LabelSet(AllSteps(pages)) <= v.Keys
  {
    RunKeepsKeys(Init(pages, initialPage).state, events);
  }

  /** An event reports at most one notice; the index moves exactly when a page change is
      reported, and the reported index is the new one. */
  lemma DispatchReportsMoves(s: State, e: Event)
    ensures |Dispatch(s, e).notices| <= 1
    ensures forall i :: PageChanged(i) in Dispatch(s, e).notices ==> i == Dispatch(s, e).state.index
    ensures Dispatch(s, e).state.index != s.index <==>
      exists i :: PageChanged(i) in Dispatch(s, e).notices
  {
    var t := Dispatch(s, e);
    if t.state.index != s.index {
      assert PageChanged(t.state.index) in t.notices;
    }
  }
}

=== FILE: whitespace.dfy ===
/** String trimming as ECMAScript's `String.prototype.trim` performs it: leading and
    trailing WhiteSpace and LineTerminator code points are removed. */
module Whitespace {

  /** The WhiteSpace (TAB, VT, FF, ZWNBSP and the Unicode "Space_Separator" category)
      and LineTerminator (LF, CR, LS, PS) code points of the ECMAScript grammar. */
  predicate IsWhitespace(c: char)
  {
    || c == '\t' || c == '\U{000B}' || c == '\U{000C}' || c == ' ' || c == '\U{00A0}'
    || c == '\U{FEFF}' || c == '\U{1680}' || ('\U{2000}' <= c <= '\U{200A}')
    || c == '\U{202F}' || c == '\U{205F}' || c == '\U{3000}'
    || c == '\n' || c == '\r' || c == '\U{2028}' || c == '\U{2029}'
  }

  /** A string made of whitespace only (the empty string included). */
  predicate IsBlank(s: string)
  {
    forall i :: 0 <= i < |s| ==> IsWhitespace(s[i])
  }

  /** Where the trimmed value starts: the index of the first non-whitespace character
      at or after `lo`, or `|s|` when there is none. */
  function TrimFrom(s: string, lo: nat): (a: nat)
    requires lo <= |s|
    ensures lo <= a <= |s|
    ensures forall i :: lo <= i < a ==> IsWhitespace(s[i])
    ensures a == |s| || !IsWhitespace(s[a])
    decreases |s| - lo
  {
    if lo < |s| && IsWhitespace(s[lo]) then TrimFrom(s, lo + 1) else lo
  }

  /** Where the trimmed value ends: the index just past the last non-whitespace
      character before `hi` and at or after `lo`, or `lo` when there is none. */
  function TrimTo(s: string, lo: nat, hi: nat): (b: nat)
    requires lo <= hi <= |s|
    ensures lo <= b <= hi
    ensures forall i :: b <= i < hi ==> IsWhitespace(s[i])
    ensures b == lo || !IsWhitespace(s[b - 1])
    decreases hi
  {
    if hi > lo && IsWhitespace(s[hi - 1]) then TrimTo(s, lo, hi - 1) else hi
  }

  /** `s[a..b]` is a slice of `s` and everything of `s` outside it is whitespace. */
  predicate OnlyWhitespaceOutside(s: string, a: int, b: int)
  {
    && 0 <= a <= b <= |s|
    && (forall i :: 0 <= i < a ==> IsWhitespace(s[i]))
    && (forall i :: b <= i < |s| ==> IsWhitespace(s[i]))
  }

  /** `s.trim()`: the slice of `s` left once only whitespace has been cut from its two
      ends; it neither starts nor ends with whitespace and is empty exactly when `s` is
      blank. */
  function Trim(s: string): (r: string)
    ensures |r| <= |s|
    ensures exists a, b :: OnlyWhitespaceOutside(s, a, b) && r == s[a..b]
    ensures r == [] || (!IsWhitespace(r[0]) && !IsWhitespace(r[|r| - 1]))
    ensures r == [] <==> IsBlank(s)
  {
    var a := TrimFrom(s, 0);
    var b := TrimTo(s, a, |s|);
    assert OnlyWhitespaceOutside(s, a, b);
    assert b == a ==> IsBlank(s);
    s[a..b]
  }
}

=== FILE: wrappers.dfy ===
/** An optional value: the model's counterpart of a TypeScript property that may be
    `undefined` (an optional callback, an optional `options` list, a missing transform). */
module Wrappers {

  datatype Option<+T> = None | Some(value: T) {

    /** The carried value, or `default` when there is none. */
    function GetOr(default: T): T
    {
      match this
      case Some(v) => v
      case None => default
    }
  }
}
